=== FILE: README.md ===
# Polly (VibePulse) core, modelled in Dafny

VibePulse is a polling service. A Cloudflare worker stores polls, their votes and
the voters' optional demographic profiles in a SQL database. It keeps a per-poll
vote counter in a key-value cache and reports results. Demographic breakdowns are
shown only for buckets of at least five votes. The frontend adds a poll-creation
form, an expiry countdown, a local record of the browser's own votes, and
deterministic anonymous nicknames.

This project models that core as pure Dafny functions over explicit state, and
proves what the code promises about it.

| module | file | models |
|---|---|---|
| `Wrappers` | wrappers.dfy | `Option` and `Result` |
| `JsString` | jsstring.dfy | JavaScript `.length` (UTF-16 code units), `trim`, `toLowerCase`, `startsWith`, `split`/`join` |
| `Schema` | schema.dfy | the database rows and the error codes with their HTTP statuses |
| `Kv` | kv.dfy | `initCounts`, `incrementVoteCount`, `formatResults` and the k-anonymity threshold |
| `Pagination` | pagination.dfy | the `limit`/`cursor` paging shared by the three listing routes |
| `Polls` | polls.dfy | poll creation, poll detail, the poll list, the vote acceptor, and the store invariant |
| `Users` | users.dfy | GET `/me`, PUT `/me/profile`, GET `/me/polls` |
| `Comments` | comments.dfy | posting, deleting and listing comments |
| `Cors` | cors.dfy | the origin callback of the CORS middleware |
| `CreatePollForm` | createpollform.dfy | the option and tag editing, validity and payload of the creation form |
| `ExpirationTimer` | expirationtimer.dfy | `formatTimeRemaining` and `isUrgent` |
| `VoteStorage` | votestorage.dfy | `saveVote`, `getVote`, `hasVoted` over local storage |
| `AnonymousName` | anonymousname.dfy | the djb2 hash with 32-bit semantics, the hex suffix, and the nickname |

**The worker's state.** It is one value: `Polls.Store(polls, responses, counts, profiles)`.

- `responses` is the durable vote log, in the order the votes were accepted.
- `counts` is the cache.

Every handler returns `Result`. A failure carries no store, so an error changes
nothing.

**Parameters.** Some values come from the database, the clock or the environment:

- new ids and `created_at`;
- the request time `now`;
- the authenticated user id;
- the `ALLOWED_ORIGINS` variable;
- the remaining milliseconds of a timer;
- whether a local-storage write succeeds.

All of these are parameters.

**The store invariant.** `Polls.Valid` combines three conditions:

1. every response names an existing poll and one of its options;
2. no (poll, fingerprint) pair occurs twice;
3. every cache entry equals the replay of that poll's log, and a poll without an entry has no votes.

Vote submission and poll creation preserve it. Under it, the results a poll shows
are those its durable log alone determines.

**Two database bindings.** The comment routes query the `survey_db` binding and
the other routes query `DB`. The model therefore takes the set of poll ids the
comment database knows as a separate parameter of `Comments.PostComment`.

## Model

| member | source | states |
|---|---|---|
| JsString.TrimEmptyIff | workers/src/routes/polls.ts:119 | an option survives `trim()` followed by `filter(Boolean)` exactly when it is not all ECMAScript whitespace |
| JsString.ToLower | frontend/src/components/CreatePoll.tsx:37 | lower-casing keeps the length, leaves no ASCII capital, and changes no other character |
| Kv.InitCounts | workers/src/utils/kv.ts:3-8 | a new entry has one zero slot per option, a zero total and no demographic buckets, and it is consistent |
| Kv.IncrementVoteCount | workers/src/utils/kv.ts:17-49 | a missing entry starts from `initCounts`; the total and the chosen option gain one vote and the other options keep theirs; a truthy gender and a truthy age group each add one vote to the chosen slot of their own bucket, creating a zeroed bucket first; every other bucket is untouched |
| Kv.IncrementPreservesConsistency | workers/src/utils/kv.ts:25-45 | after an increment the total is still the sum of the option counts and no bucket holds more votes than the total |
| Kv.Disclose | workers/src/utils/kv.ts:60-71 | a bucket is reported exactly when it holds at least `MIN_SAMPLE_SIZE` votes, with its own count and its shares; the breakdown is absent rather than empty when none qualifies |
| Kv.FormatResults | workers/src/utils/kv.ts:51-90 | option `i` is reported at position `i` with its count and its share of the total; gender and age-group buckets are reported exactly when they reach the threshold, with shares relative to their own count |
| Kv.PercentagesSumTo100 | workers/src/utils/kv.ts:54-58 | on a consistent entry with votes, the option percentages add up to exactly 100 |
| Kv.BucketSharesSumTo100 | workers/src/utils/kv.ts:62-67 | a bucket with votes reports percentages that add up to 100 |
| Kv.DisclosedBucketsAreLargeEnough | workers/src/utils/kv.ts:60-82 | every disclosed bucket holds at least five votes and its percentages add up to 100 |
| Kv.ThreeToOne | workers/src/utils/kv.ts:54-58 | counts [3, 1] are reported as 75% and 25%, without breakdowns |
| Kv.KAnonymityThreshold | workers/src/utils/kv.ts:52-71 | a gender bucket of four votes is withheld and one of five is shown |
| Pagination.ListLimit | workers/src/routes/polls.ts:14 | the handlers' page size: an absent, non-numeric or zero request gives 20, any other is capped at 50 and otherwise kept, so the size is negative exactly when a negative number is requested |
| Pagination.PageLimit | workers/src/routes/polls.ts:14 | the page size is between 1 and 50: a requested size in range is used, a larger one is capped at 50, and an absent, non-numeric or non-positive one gives 20 |
| Pagination.LimitsAgree | workers/src/routes/polls.ts:14 | the corrected page size equals the handlers' `Math.min` expression on every request that is absent, non-numeric or not negative |
| Pagination.SqlLimit | workers/src/routes/polls.ts:41-43 | SQL `LIMIT n` keeps the first `n` rows, and all rows when `n` is negative |
| Pagination.SliceTo | workers/src/routes/polls.ts:50 | `slice(0, end)` keeps a prefix, and a negative `end` drops that many rows from the back |
| Pagination.PageAsWritten | workers/src/routes/polls.ts:41-51 | with a limit of at least one it computes the corrected page; it fails with `INTERNAL_ERROR` exactly when the limit is -1, is 0 over a non-empty result, or is `-k` (`k >= 2`) over at most `k` rows; a limit of `-k` over more rows succeeds with every row but the last `k` |
| Pagination.Paginate | workers/src/routes/polls.ts:48-51 | the items are the first `limit` rows; a next cursor exists exactly when more rows follow, and it is the `created_at` of the last item |
| Pagination.PageAsWrittenAgrees | workers/src/routes/polls.ts:14-51 | when the `limit` parameter is absent, non-numeric or not negative, the page as written equals the corrected page |
| Pagination.NegativeLimitFails | workers/src/routes/polls.ts:14-51 | `?limit=-1` makes the page computation fail, because `LIMIT 0` fetches nothing while `0 > -1` claims a next page |
| Pagination.NegativeLimitWrongPage | workers/src/routes/polls.ts:14-51 | `?limit=-5` over ten rows succeeds with only the first five, where the corrected page size gives all ten |
| Pagination.Filter | workers/src/routes/polls.ts:20-40 | a `WHERE` condition keeps exactly the rows that satisfy it |
| Pagination.FilterKeepsOrder | workers/src/routes/polls.ts:20-41 | the kept rows are a subsequence of the query's rows, each satisfying row kept as often as it occurs, so every filter built on `Filter` (`OlderThan`, `FilterListed`, `OwnPolls`, `OfPoll`) keeps the `ORDER BY` order |
| Pagination.OlderThan | workers/src/routes/polls.ts:37-40 | with a cursor, exactly the rows strictly older than it are kept; without one, every row |
| Pagination.OlderThanSuffix | workers/src/routes/polls.ts:37-41 | in a newest-first list without ties, the rows older than the row at position `k` are exactly those after it |
| Pagination.NextPageContinues | workers/src/routes/polls.ts:37-51 | in a newest-first list without ties, following the returned cursor yields exactly the rows after the page |
| Pagination.TiedRowsSkipped | workers/src/routes/polls.ts:37-51 | two rows sharing a `created_at`, at page size one: the second row is on neither page |
| Polls.ReplayCounts | workers/src/routes/polls.ts:222-238 | replaying a poll's log gives a consistent entry whose total is the number of votes and whose option `j` holds the votes for `j` |
| Polls.CacheCountsVotes | workers/src/routes/polls.ts:222-238 | in a valid store a poll's cached total and its option sum equal the number of its responses, and option `j` holds the responses that chose `j` |
| Polls.SharedDemographics | workers/src/routes/polls.ts:202-219 | a vote carries a profile attribute only when its share flag is set, and then carries that attribute; an anonymous voter, or one without a profile, shares nothing |
| Polls.SubmitVote | workers/src/routes/polls.ts:160-239 | the checks run in the handler's order (shape, open poll, index range, expiry, duplicate fingerprint) and the first failure decides the error; success happens exactly when all pass, and then appends one row with the consented snapshot, changes only that poll's cache entry, by one increment, and returns that entry formatted |
| Polls.SubmitVotePreservesValid | workers/src/routes/polls.ts:190-238 | an accepted vote keeps the store valid: the fingerprint is still unique per poll and the cache still replays the log |
| Polls.AppendKeepsNoDuplicates | workers/src/routes/polls.ts:191-227 | appending a row whose (poll, fingerprint) pair is not yet present keeps every pair unique |
| Polls.IncrementReplays | workers/src/utils/kv.ts:25-45 | incrementing the entry that replays a log, or a missing entry for an empty log, gives the replay of the log extended by the new row |
| Polls.HasVoted | workers/src/routes/polls.ts:191-199 | the duplicate check: some response pairs the poll with the fingerprint (a definition; `HasVotedIffLogged` ties it to the log) |
| Polls.HasVotedIffLogged | workers/src/routes/polls.ts:191-199 | the duplicate check finds a row exactly when the poll's own vote log holds a vote with that fingerprint |
| Polls.SecondVoteRejected | workers/src/routes/polls.ts:191-199 | after an accepted vote, every later vote with the same fingerprint on that poll fails, with `DUPLICATE_VOTE` once it passes the earlier checks |
| Polls.GenderNotSharedLeavesGenderBuckets | workers/src/routes/polls.ts:214-235 | a vote from a signed-in voter who does not share a gender leaves every gender bucket of the poll unchanged |
| Polls.NonEmptyTrimmed | workers/src/routes/polls.ts:119 | the stored options are non-empty, already trimmed, and no more numerous than those sent |
| Polls.NonEmptyTrimmedFilters | workers/src/routes/polls.ts:119 | the stored options are exactly the options trimmed one by one, with the empty results dropped and the rest kept in order |
| Polls.CreatePoll | workers/src/routes/polls.ts:102-157 | success happens exactly when the question trims to 5..200 code units, 2..4 options are sent and at least two are non-blank; otherwise `INVALID_INPUT` and nothing changes; the new poll has id `newId`, belongs to the authenticated user (none when the id is missing or empty), stores the trimmed question and the non-blank trimmed options, a truthy category or none, and the requested expiry, is active and was created at `now`; it gets a zeroed entry with one slot per stored option; nothing else changes |
| Polls.AddPollPreservesValid | workers/src/routes/polls.ts:150-154 | adding a poll under a fresh id with a zeroed entry keeps the store valid |
| Polls.CreatePollPreservesValid | workers/src/routes/polls.ts:102-157 | creating a poll keeps the store valid |
| Polls.GetPoll | workers/src/routes/polls.ts:69-99 | any existing poll, active or not, is returned with its results; a missing one is `POLL_NOT_FOUND`; with a cache entry the results are that entry formatted; without one they are `initCounts` formatted: zero votes, one zero percentage per option and no breakdowns |
| Polls.ShownResultsFollowTheLog | workers/src/routes/polls.ts:82-98 | in a valid store the results shown for a poll are the formatted replay of its durable vote log |
| Polls.FilterListed | workers/src/routes/polls.ts:16-28 | exactly the active, unexpired polls of the requested category (of any category when none is given) are kept |
| Polls.ListPolls | workers/src/routes/polls.ts:10-66 | with the corrected page size `PageLimit`, not the handlers' `ListLimit`: the page is the first listed polls older than the cursor, in the query's order; a next cursor exists exactly when more follow, comes with a full page and is the last item's `created_at`; a page without one holds every such poll |
| Polls.PopularOrderSkipsPolls | workers/src/routes/polls.ts:30-41 | with `sort=popular`, a newer poll with fewer votes than an older one is on neither page at page size one |
| Users.GetMe | workers/src/routes/users.ts:12-43 | a user without a profile row gets no attributes and every share flag off; otherwise the stored row |
| Users.UpdateProfile | workers/src/routes/users.ts:46-94 | the update succeeds exactly when a given gender and a given age group are among the accepted values; it overwrites all six columns of the user's row, with omitted attributes becoming null and omitted flags becoming false, and no other row changes |
| Users.UpdateThenGetMe | workers/src/routes/users.ts:63-93 | what the update answers is exactly what a later GET `/me` reads back |
| Users.UpdateKeepsProfilesValid | workers/src/routes/users.ts:51-60 | updates keep every stored gender and age group null or one of the accepted values |
| Users.UpdatedConsentDecidesSnapshot | workers/src/routes/users.ts:74-82 | after an update, the next vote of that user carries an attribute exactly when its share flag was turned on |
| Users.OwnPolls | workers/src/routes/users.ts:106 | exactly the polls created by the user are kept |
| Users.MyPolls | workers/src/routes/users.ts:97-140 | with the corrected page size `PageLimit`: the page is the user's first own polls older than the cursor, newest first; a next cursor exists exactly when more follow, comes with a full page and is the last item's `created_at`; a page without one holds every such poll |
| Comments.PostComment | workers/src/routes/comments.ts:52-95 | content that does not trim to 1..500 code units is `INVALID_INPUT`, then a missing poll is `POLL_NOT_FOUND`; success happens exactly when both pass, and then adds one row with the trimmed content under the author and changes nothing else |
| Comments.DeleteComment | workers/src/routes/comments.ts:98-121 | a missing comment is `COMMENT_NOT_FOUND` and someone else's is `FORBIDDEN`; only the author removes it, and only that row disappears |
| Comments.PostThenDelete | workers/src/routes/comments.ts:52-121 | the author deleting the comment they just posted restores the comment table |
| Comments.OfPoll | workers/src/routes/comments.ts:18 | exactly the comments of the poll are kept |
| Comments.ListComments | workers/src/routes/comments.ts:9-49 | with the corrected page size `PageLimit`: the page is the poll's first comments older than the cursor, newest first; a next cursor exists exactly when more follow, comes with a full page and is the last item's `created_at`; a page without one holds every such comment |
| Comments.PostedCommentListed | workers/src/routes/comments.ts:9-95 | in a newest-first table with nothing created after `now`, a comment just posted leads the poll's first page |
| Cors.EnvOrigins | workers/src/middleware/cors.ts:15 | the variable contributes one trimmed entry per comma-separated piece, and nothing when it is unset |
| Cors.EnvOriginsListed | workers/src/middleware/cors.ts:15 | an origin comes from the variable exactly when it is a trimmed comma-separated piece of it |
| Cors.AllowOriginAsWritten | workers/src/middleware/cors.ts:13-26 | the answer is the origin or the empty string; a non-empty origin is echoed exactly when it is listed or starts with `http://localhost` |
| Cors.LookalikeAllowedAsWritten | workers/src/middleware/cors.ts:21-23 | `http://localhost.evil.example` is echoed as allowed |
| Cors.LookalikeHost | workers/src/middleware/cors.ts:22 | the look-alike origin's host is `localhost.evil.example`, not `localhost` |
| Cors.AllowOrigin | workers/src/middleware/cors.ts:13-26 | the corrected callback answers the origin or the empty string, and echoes a non-empty origin exactly when it is listed or is `http://localhost` with an optional numeric port |
| Cors.AllowOriginHost | workers/src/middleware/cors.ts:17-23 | every origin the corrected callback echoes is listed or has the host `localhost` |
| Cors.LocalhostHost | workers/src/middleware/cors.ts:21-23 | an origin admitted by the corrected development exception has the host `localhost` |
| Cors.CorrectionOnlyRefusesLookalikes | workers/src/middleware/cors.ts:17-25 | the corrected and the written callbacks differ only on origins that start with `http://localhost` without being `http://localhost[:port]`, which the correction refuses |
| CreatePollForm.AddOption | frontend/src/components/CreatePoll.tsx:18-22 | an empty option is appended exactly when fewer than four are present, and otherwise nothing changes |
| CreatePollForm.WithoutIndex | frontend/src/components/CreatePoll.tsx:26 | filtering by position removes exactly the entry at `index`, and nothing when the index is outside the list |
| CreatePollForm.RemoveOption | frontend/src/components/CreatePoll.tsx:24-28 | the option at `index` is removed when more than two are present, and otherwise nothing changes |
| CreatePollForm.UpdateOption | frontend/src/components/CreatePoll.tsx:30-34 | only the edited position changes |
| CreatePollForm.OptionEditsKeepBounds | frontend/src/components/CreatePoll.tsx:18-34 | adding, removing and editing options keep their number between two and four |
| CreatePollForm.StripHash | frontend/src/components/CreatePoll.tsx:37 | exactly one leading `#` is dropped |
| CreatePollForm.NormalizeTag | frontend/src/components/CreatePoll.tsx:37 | with ASCII-only lower-casing, a normalised tag is no longer than its input and has no ASCII capital |
| CreatePollForm.AddTag | frontend/src/components/CreatePoll.tsx:36-42 | the normalised tag is appended exactly when it is non-empty, at most 20 code units, new, and fewer than five tags are present; otherwise the list is unchanged |
| CreatePollForm.AddTagKeepsTagsValid | frontend/src/components/CreatePoll.tsx:36-42 | adding a tag keeps the list at most five distinct, non-empty tags of at most 20 code units |
| CreatePollForm.RemoveTag | frontend/src/components/CreatePoll.tsx:44-46 | every occurrence of the tag is removed and every other tag is kept, with its multiplicity |
| CreatePollForm.RemoveAbsentTag | frontend/src/components/CreatePoll.tsx:44-46 | removing an absent tag changes nothing |
| CreatePollForm.RemoveTagKeepsOrder | frontend/src/components/CreatePoll.tsx:44-46 | in a duplicate-free list, removing a tag is removing its one position |
| CreatePollForm.RemoveTagKeepsNoDuplicates | frontend/src/components/CreatePoll.tsx:44-46 | removing a tag keeps the list duplicate-free |
| CreatePollForm.RemoveTagKeepsTagsValid | frontend/src/components/CreatePoll.tsx:44-46 | removing a tag keeps the tag list valid |
| JsString.TrimAll | frontend/src/components/CreatePoll.tsx:70 | every option is sent trimmed, in order |
| CreatePollForm.SubmitPayload | frontend/src/components/CreatePoll.tsx:68-72 | the payload holds the trimmed question and the trimmed options, and holds the tags exactly when there are some |
| CreatePollForm.NoBlankOptionsKept | frontend/src/components/CreatePoll.tsx:60 | when no option trims to empty, the server's trim-and-filter keeps the sent options unchanged and in order |
| CreatePollForm.IsValid | frontend/src/components/CreatePoll.tsx:57-61 | the submit button's condition: a question of 5..200 code units after trimming and at least two options, none blank (a definition; `ValidFormIsAccepted` ties it to the server) |
| CreatePollForm.ValidFormIsAccepted | frontend/src/components/CreatePoll.tsx:57-72 | a form that enables its submit button sends a request the creation route accepts, and the stored poll has exactly the trimmed question and options |
| ExpirationTimer.FormatTimeRemaining | frontend/src/components/ExpirationTimer.tsx:7-25 | a non-positive time reads as closed; otherwise the label shows the two largest whole units of the time left, the smaller below its carry, and the time left lies within one smaller unit of what is shown |
| ExpirationTimer.FloorChain | frontend/src/components/ExpirationTimer.tsx:10-13 | successive floor divisions into seconds, minutes, hours and days are floor divisions by the whole unit |
| ExpirationTimer.DescribesUnique | frontend/src/components/ExpirationTimer.tsx:7-25 | only one label describes a given remaining time, so the label shown is the true one |
| ExpirationTimer.IsUrgent | frontend/src/components/ExpirationTimer.tsx:45 | some time is left, but less than an hour (a definition; `UrgentIffUnderAnHour` ties it to the label) |
| ExpirationTimer.UrgentIffUnderAnHour | frontend/src/components/ExpirationTimer.tsx:45 | the timer is urgent exactly when its label shows minutes and seconds, or seconds only |
| VoteStorage.Load | frontend/src/lib/voteStorage.ts:10-17 | unreadable storage, or a missing or unparseable value, reads as the empty record |
| VoteStorage.SaveVote | frontend/src/lib/voteStorage.ts:27-34 | a successful write records the vote under the poll and keeps every other poll's entry, both which polls have one and what each holds; a failed write changes nothing |
| VoteStorage.GetVote | frontend/src/lib/voteStorage.ts:36-39 | a vote is returned exactly when the poll is recorded |
| VoteStorage.GetAfterSave | frontend/src/lib/voteStorage.ts:27-39 | a saved vote reads back, and the poll counts as voted |
| VoteStorage.SaveKeepsOthers | frontend/src/lib/voteStorage.ts:27-39 | saving for one poll, whether or not the write lands, changes nothing any other poll reads |
| VoteStorage.LastWriteWins | frontend/src/lib/voteStorage.ts:27-34 | a second save for the same poll leaves the record as if only the second had happened |
| VoteStorage.HasVotedIffGetVote | frontend/src/lib/voteStorage.ts:36-44 | `hasVoted` holds exactly when `getVote` returns a value |
| VoteStorage.HasVoted | frontend/src/lib/voteStorage.ts:41-44 | the poll id is a key of the stored record (a definition; `HasVotedIffGetVote` and `GetAfterSave` tie it to the other operations) |
| VoteStorage.CorruptStorageIsEmpty | frontend/src/lib/voteStorage.ts:10-17 | unreadable or corrupt storage reads as never voted, and the first save over it starts a fresh record |
| AnonymousName.ToInt32 | frontend/src/lib/anonymousName.ts:26 | the 32-bit result is congruent to the exact value modulo 2^32 |
| AnonymousName.ShiftAddIsTimes33 | frontend/src/lib/anonymousName.ts:26 | `(hash << 5) + hash` truncated to 32 bits is `33 * hash` truncated to 32 bits |
| AnonymousName.Abs | frontend/src/lib/anonymousName.ts:28 | `Math.abs` of a 32-bit value is its magnitude, at most 2^31 |
| AnonymousName.HashString | frontend/src/lib/anonymousName.ts:23-29 | the loop computes djb2 over the UTF-16 code units with 32-bit wrap-around, and the result is between 0 and 2^31 |
| AnonymousName.ToHex | frontend/src/lib/anonymousName.ts:33 | `toString(16)` gives lower-case hex digits, and at most four for a value below 0x10000 |
| AnonymousName.ToHexValue | frontend/src/lib/anonymousName.ts:33 | reading the hex digits back gives the number |
| AnonymousName.PadZerosValue | frontend/src/lib/anonymousName.ts:33 | zero padding keeps the value |
| AnonymousName.ToHexSuffix | frontend/src/lib/anonymousName.ts:32-34 | the suffix is four lower-case hex digits that read back as `hash % 0xFFFF` |
| AnonymousName.SuffixIsNeverFfff | frontend/src/lib/anonymousName.ts:32-34 | the suffix `ffff` never occurs |
| AnonymousName.AdjectivesHaveNoSpace | frontend/src/lib/anonymousName.ts:4-11 | no adjective contains a space |
| AnonymousName.AnimalsHaveNoSpace | frontend/src/lib/anonymousName.ts:13-20 | no animal contains a space |
| AnonymousName.GenerateAnonymousName | frontend/src/lib/anonymousName.ts:43-51 | the nickname: adjective, animal and `#` suffix chosen from the hash, joined by spaces (a definition; `NameParts` ties it to its three parts) |
| AnonymousName.NameParts | frontend/src/lib/anonymousName.ts:43-51 | the nickname splits on spaces into the adjective at `hash % 30`, the animal at `floor(hash / 30) % 30`, and `#` followed by the suffix |

## Left out

- The routes outside this core are not part of this model: explore, admin, XP, auth, images, tags and the route index. So are the fingerprint, API-client and Kakao libraries.
- Users: GET `/me/votes` is not part of this model. It is one more page of the same pagination over a join, with no rule of its own.
- All React rendering, navigation, `alert`, and the tag input's key handling are left out: rendering is outside a pure model.
  - Unmodelled key handling: `handleTagKeyDown` and clearing the tag input after `addTag`.
  - `CreatePollForm.AddTag` models the tag list only.
- The Korean wording of the timer's labels and of error messages is left out: a label is its numbers.
- The timer's one-second interval is left out.
- Reading the clock and parsing dates are left out. The remaining time and `now` are integer parameters.
- The race between the duplicate check and the insert is left out. So is the one between the cache read and write: handlers run one at a time in the model.
- Polls.CreatePoll: `newId` is taken to be the id of the inserted row. The handler instead re-selects the creator's newest poll by `created_at` (polls.ts:139-147), which differs in two cases the model does not cover:
  - Two polls of one creator created in the same second: the re-select may return the older poll's id. The handler then answers with that poll and writes a zeroed cache entry over the older poll's counts, which breaks the cache invariant.
  - A missing user id (`requireAuth` leaves it unset when the user row cannot be read back): the insert stores `creator_id = NULL`, the re-select finds nothing, and the handler answers `INTERNAL_ERROR` although the poll row was inserted.
- Comments.PostComment: `newId` is taken to be the id of the inserted row. The re-select at comments.ts:77-81 may return an older comment by the same author on the same poll from the same second, and the handler then answers with that comment.
- Pagination.ListLimit: the `limit` parameter is modelled as an integer or absent. A non-integer such as `2.5` survives `Number` and `Math.min`; SQLite rejects the resulting non-integer `LIMIT`, so such a request fails with a server error.
- The listing routes `Polls.ListPolls`, `Users.MyPolls` and `Comments.ListComments` use the corrected `PageLimit`. `Pagination.PageAsWritten` states what the handlers' own `ListLimit` does, including the negative cases.
- Polls.ListPolls: `rows` are the polls in the order of the query's `ORDER BY`, so the `sort` parameter is only that order. With `sort=popular` the `created_at` cursor does not match the order and skips polls (`Polls.PopularOrderSkipsPolls`). No corrected popular pagination is modelled: it needs a cursor that also carries the response count.
- Percentages are exact reals, not IEEE doubles. Rounding in `count / total * 100` is not modelled.
- A vote's `optionIndex` is an integer or absent. A non-integer number, `NaN` or `Infinity` is not modelled.
  - A non-integer number would pass the handler's range check and corrupt a counter slot. That case is not modelled.
- A non-string option, question or comment (where `?.trim()` throws) is modelled as absent.
- Polls.NonEmptyTrimmed: a `null` or `undefined` element of `options` is dropped by `o?.trim()` followed by `filter(Boolean)` (polls.ts:119). A `seq<string>` has no such element, so the model does not cover it.
- Users.Flag: takes `Option<bool>`. The handler stores `body.shareGender ? 1 : 0` (users.ts:79-81), so a non-boolean truthy flag such as `"yes"` is stored as 1. The model does not cover non-boolean flags.
- Comments: the comment queries join `users` and return the author's `clerkId` with each comment (comments.ts:15-17, 43, 78, 91). The modelled `Comment` has no `clerkId` field, so the model says nothing about that part of the response.
- Local storage holds an abstract record, not JSON text.
  - A stored JSON `null` or array is not modelled. With `null`, the readers would throw.
- VoteStorage.HasVotedIffGetVote: `pollId in storage` is also true for names inherited from `Object.prototype`, such as `constructor`, while `getVote` returns null for them. The lemma holds for poll ids that are not such names, which includes every id the worker generates.
- JsString.ToLower: lower-cases ASCII letters only, not the full Unicode case mapping of `toLowerCase`. The full mapping is a large table outside this model, and it changes what the tag rules decide for non-ASCII capitals (the next two lines).
- CreatePollForm.NormalizeTag: a non-ASCII capital is kept as it is, so the stored tag differs from the source's (`"Été"` is stored as `"Été"`, not `"été"`). "No longer than its input" holds only for this model: `'İ'.toLowerCase()` is two code units long.
- CreatePollForm.AddTag: for tags with non-ASCII capitals, the duplicate test and the 20-unit length test run on the ASCII-lower-cased tag, not the source's fully lower-cased one. So `AddTag(["été"], "Été")` appends `"Été"`, while the source finds `"été"` and leaves the list unchanged; and a tag that lower-cases to more code units can pass here and fail the source's length test.
- Polls.SubmitVote: requires `CountsShaped`, meaning every cache entry has one slot per option of its poll. The handler assumes this too. `Polls.ValidIsShaped` derives it from the store invariant.
- CreatePollForm.UpdateOption: requires an index inside the list. The form only calls it with the index of a rendered input. An out-of-range index would grow a JavaScript array with holes.
- Polls.CreatePoll: the database's default `is_active = 1` is taken as given, and a new poll is active.
- `category` and `expiresAt` of a new poll are stored unvalidated, as the handler does. An invalid date string is not modelled.

## Findings

| source | as written | input that shows it | evidently intended | confidence | as-written member | corrected member |
|---|---|---|---|---|---|---|
| workers/src/routes/polls.ts:14 | The page-size expression, the minimum of the requested number (or 20) and 50, lets a negative limit through. `LIMIT limit + 1` then fetches nothing for `-1`, yet `rows.length > limit` holds, so `items[items.length - 1].created_at` reads a property of `undefined`. The same code is at users.ts:100 and comments.ts:12. | `GET /api/polls?limit=-1` | a non-positive limit falls back to the default page size of 20 | not executed | Pagination.NegativeLimitFails | Pagination.Paginate |
| workers/src/routes/polls.ts:14 | For a limit of `-k` with `k >= 2`, `LIMIT 1 - k` means no limit and `slice(0, -k)` drops the last `k` rows, so the request succeeds with a page of the wrong size that can exceed 50 rows, and fails when there are at most `k` rows. | `GET /api/polls?limit=-5` with ten listed polls | the default page size of 20, so all ten polls | not executed | Pagination.NegativeLimitWrongPage | Pagination.Paginate |
| workers/src/middleware/cors.ts:22 | `origin.startsWith('http://localhost')` also accepts hosts that merely begin with `localhost` | `Origin: http://localhost.evil.example` | only the host `localhost`, with an optional port | not executed | Cors.LookalikeAllowedAsWritten | Cors.AllowOrigin |

**Related observations, not counted as findings:**

- With `sort=popular`, the `created_at` cursor skips polls (`Polls.PopularOrderSkipsPolls`); see "Left out".
- The strict `created_at < cursor` filter skips rows that share a `created_at` with the last item of a page (`Pagination.TiedRowsSkipped`). That can be a design choice at one-second resolution.
- `toHexSuffix` takes the hash modulo `0xFFFF`, not `0x10000`, so only 65535 suffixes occur and `ffff` never does (`AnonymousName.SuffixIsNeverFfff`).
- The tag `"# a"` normalises to `" a"`, with a leading space, because the `#` is stripped after trimming.

=== FILE: anonymousname.dfy ===
/**
  The anonymous nickname shown for a signed-in user: a djb2 hash of the user id
  under JavaScript's 32-bit integer semantics picks an adjective and an animal, and
  four hex digits of the hash follow as a suffix. The same id always gives the same
  name, since every member here is a function of the id.
*/
module AnonymousName {
  import opened JsString

  /** A JavaScript value after `ToInt32`: a signed 32-bit integer. */
  type Int32 = x: int | -0x8000_0000 <= x < 0x8000_0000

  /** ECMAScript `ToInt32` on an integer: congruent to `x` modulo 2^32 and in signed range. */
  function ToInt32(x: int): (r: Int32)
    ensures (r - x) % 0x1_0000_0000 == 0
  {
    var m := x % 0x1_0000_0000;
    if m >= 0x8000_0000 then m - 0x1_0000_0000 else m
  }

  /** Two signed 32-bit values congruent modulo 2^32 are equal. */
  lemma ToInt32Unique(x: int, y: Int32, k: int)
    requires y == x + 0x1_0000_0000 * k
    ensures ToInt32(x) == y
  {
    var r := ToInt32(x);
    var q := (r - x) / 0x1_0000_0000;
    assert r == x + 0x1_0000_0000 * q;
    assert r - y == 0x1_0000_0000 * (q - k);
  }

  /** The two's-complement bit pattern of a signed 32-bit value. */
  function Bits(x: Int32): bv32 {
    (x % 0x1_0000_0000) as bv32
  }

  /** JavaScript `a ^ b` on two 32-bit values. */
  function Xor(a: Int32, b: Int32): Int32 {
    ToInt32((Bits(a) ^ Bits(b)) as int)
  }

  /** One round of the loop: `hash = ((hash << 5) + hash) ^ code`. */
  function Step(hash: Int32, code: CodeUnit): Int32 {
    Xor(ToInt32(ToInt32(hash * 32) + hash), code)
  }

  /** The shift-and-add of a round is multiplication by 33 with 32-bit wrap-around. */
  lemma ShiftAddIsTimes33(hash: Int32)
    ensures ToInt32(ToInt32(hash * 32) + hash) == ToInt32(33 * hash)
  {
    var s := ToInt32(hash * 32);
    var y := ToInt32(33 * hash);
    var a := (y - 33 * hash) / 0x1_0000_0000;
    var b := (s - hash * 32) / 0x1_0000_0000;
    assert y == 33 * hash + 0x1_0000_0000 * a;
    assert s == hash * 32 + 0x1_0000_0000 * b;
    ToInt32Unique(s + hash, y, a - b);
  }

  const SEED: Int32 := 5381

  /** The hash before `Math.abs`: the rounds folded over the code units from the left. */
  function Djb2(units: seq<CodeUnit>): Int32 {
    if |units| == 0 then SEED else Step(Djb2(units[..|units| - 1]), units[|units| - 1])
  }

  /** `Math.abs` of a 32-bit value; -2^31 gives 2^31, which a JavaScript number holds. */
  function Abs(x: Int32): (r: nat)
    ensures r <= 0x8000_0000
    ensures r == x as int || r == -(x as int)
  {
    if x < 0 then -(x as int) else x as int
  }

  /** The value `hashString` returns, as a specification. */
  function Hash(s: string): nat {
    Abs(Djb2(Utf16(s)))
  }

  /** `hashString`: the loop over `charCodeAt`, then `Math.abs`; never negative and at most 2^31. */
  method HashString(s: string) returns (r: nat)
    ensures r == Hash(s)
    ensures r <= 0x8000_0000
  {
    var units := Utf16(s);
    var hash: Int32 := SEED;
    var i := 0;
    while i < |units|
      invariant 0 <= i <= |units|
      invariant hash == Djb2(units[..i])
    {
      assert units[..i + 1][..i] == units[..i];
      assert Djb2(units[..i + 1]) == Step(Djb2(units[..i]), units[i]);
      hash := Step(hash, units[i]);
      i := i + 1;
    }
    assert units[..i] == units;
    r := Abs(hash);
  }

  predicate IsHexDigit(c: char) {
    '0' <= c <= '9' || 'a' <= c <= 'f'
  }

  function DigitValue(c: char): nat
    requires IsHexDigit(c)
  {
    if c <= '9' then (c - '0') as nat else (c - 'a') as nat + 10
  }

  /** The lower-case hex digit of a value below 16. */
  function HexDigit(d: nat): (c: char)
    requires d < 16
    ensures IsHexDigit(c) && DigitValue(c) == d
  {
    if d < 10 then ('0' as int + d) as char else ('a' as int + d - 10) as char
  }

  /** The number a string of lower-case hex digits denotes. */
  function HexValue(s: string): nat
    requires forall i :: 0 <= i < |s| ==> IsHexDigit(s[i])
  {
    if |s| == 0 then 0 else HexValue(s[..|s| - 1]) * 16 + DigitValue(s[|s| - 1])
  }

  /** `v.toString(16)`: lower-case hex digits without leading zeros, `"0"` for zero. */
  function ToHex(v: nat): (r: string)
    ensures 1 <= |r|
    ensures forall i :: 0 <= i < |r| ==> IsHexDigit(r[i])
    ensures v < 0x10 ==> |r| == 1
    ensures v < 0x100 ==> |r| <= 2
    ensures v < 0x1000 ==> |r| <= 3
    ensures v < 0x10000 ==> |r| <= 4
  {
    if v < 16 then [HexDigit(v)] else ToHex(v / 16) + [HexDigit(v % 16)]
  }

  /** Reading the hex digits back gives the number. */
  lemma {:induction false} ToHexValue(v: nat)
    ensures HexValue(ToHex(v)) == v
  {
    var r := ToHex(v);
    if v >= 16 {
      ToHexValue(v / 16);
      assert r[..|r| - 1] == ToHex(v / 16);
    }
  }

  /** `s.padStart(n, '0')` for a string of at most `n` digits. */
  function PadZeros(s: string, n: nat): (r: string)
    requires |s| <= n
    ensures |r| == n
  {
    seq(n - |s|, _ => '0') + s
  }

  /** A leading zero does not change the value. */
  lemma {:induction false} LeadingZero(s: string)
    requires forall i :: 0 <= i < |s| ==> IsHexDigit(s[i])
    ensures HexValue("0" + s) == HexValue(s)
  {
    if |s| > 0 {
      LeadingZero(s[..|s| - 1]);
      assert ("0" + s)[..|s|] == "0" + s[..|s| - 1];
    }
  }

  /** Zero padding does not change the value. */
  lemma {:induction false} PadZerosValue(s: string, n: nat)
    requires |s| <= n
    requires forall i :: 0 <= i < |s| ==> IsHexDigit(s[i])
    ensures forall i :: 0 <= i < n ==> IsHexDigit(PadZeros(s, n)[i])
    ensures HexValue(PadZeros(s, n)) == HexValue(s)
    decreases n - |s|
  {
    if |s| < n {
      PadZerosValue("0" + s, n);
      LeadingZero(s);
      assert seq(n - |s|, _ => '0') == seq(n - |s| - 1, _ => '0') + "0";
      assert PadZeros(s, n) == PadZeros("0" + s, n);
      assert HexValue(PadZeros(s, n)) == HexValue("0" + s);
    } else {
      assert PadZeros(s, n) == s;
    }
  }

  /**
    `toHexSuffix`: `hash % 0xFFFF` in hex, zero-padded. The remainder is below 0xFFFF,
    so the suffix is always exactly four lower-case hex digits and reads back as that
    remainder.
  */
  function ToHexSuffix(hash: nat): (r: string)
    ensures |r| == 4
    ensures forall i :: 0 <= i < 4 ==> IsHexDigit(r[i])
    ensures HexValue(r) == hash % 0xFFFF
  {
    var v := hash % 0xFFFF;
    ToHexValue(v);
    PadZerosValue(ToHex(v), 4);
    PadZeros(ToHex(v), 4)
  }

  /** Since the remainder is taken modulo 0xFFFF rather than 0x10000, "ffff" never occurs. */
  lemma SuffixIsNeverFfff(hash: nat)
    ensures ToHexSuffix(hash) != "ffff"
  {
    assert HexValue("ff") == 255 by {
      assert "ff"[..1] == "f";
    }
    assert HexValue("fff") == 4095 by {
      assert "fff"[..2] == "ff";
    }
    assert HexValue("ffff") == 0xFFFF by {
      assert "ffff"[..3] == "fff";
    }
  }

  const ADJECTIVES: seq<string> := [
    "행복한", "용감한", "지혜로운", "빛나는", "따뜻한",
    "씩씩한", "명랑한", "재빠른", "조용한", "활발한",
    "귀여운", "멋진", "착한", "똑똑한", "신비로운",
    "느긋한", "열정적인", "차분한", "유쾌한", "당당한",
    "친절한", "솔직한", "성실한", "창의적인", "긍정적인",
    "순수한", "자유로운", "듬직한", "상냥한", "호기심많은"
  ]

  const ANIMALS: seq<string> := [
    "판다", "호랑이", "토끼", "여우", "곰",
    "사자", "코끼리", "기린", "펭귄", "돌고래",
    "고양이", "강아지", "햄스터", "다람쥐", "부엉이",
    "독수리", "백조", "공작", "수달", "해달",
    "코알라", "캥거루", "알파카", "라쿤", "치타",
    "늑대", "사슴", "두루미", "까치", "참새"
  ]

  /** `generateAnonymousName`: adjective, animal and `#` suffix, separated by spaces. */
  function GenerateAnonymousName(clerkId: string): string {
    var hash := Hash(clerkId);
    var adjIndex := hash % |ADJECTIVES|;
    var animalIndex := (hash / |ADJECTIVES|) % |ANIMALS|;
    ADJECTIVES[adjIndex] + " " + ANIMALS[animalIndex] + " #" + ToHexSuffix(hash)
  }

  /** No adjective contains a space. */
  lemma AdjectivesHaveNoSpace()
    ensures NoSeparator(ADJECTIVES, ' ')
  {
  }

  /** No animal contains a space. */
  lemma AnimalsHaveNoSpace()
    ensures NoSeparator(ANIMALS, ' ')
  {
  }

  /** Three space-free words joined by single spaces split back into those words. */
  lemma SplitThree(a: string, b: string, c: string)
    requires ' ' !in a && ' ' !in b && ' ' !in c
    ensures Split(a + " " + b + " " + c, ' ') == [a, b, c]
  {
    var parts := [a, b, c];
    assert Join(parts[2..], ' ') == c;
    assert Join(parts[1..], ' ') == b + " " + c;
    assert Join(parts, ' ') == a + " " + b + " " + c;
    JoinSplit(parts, ' ');
  }

  /**
    The name splits on spaces into exactly three pieces: the adjective at index
    `hash % 30`, the animal at index `floor(hash / 30) % 30`, and `#` followed by the
    suffix.
  */
  lemma NameParts(clerkId: string)
    ensures var hash := Hash(clerkId);
      Split(GenerateAnonymousName(clerkId), ' ')
        == [ADJECTIVES[hash % 30], ANIMALS[(hash / 30) % 30], "#" + ToHexSuffix(hash)]
  {
    var hash := Hash(clerkId);
    var adjective, animal, tail := ADJECTIVES[hash % 30], ANIMALS[(hash / 30) % 30], "#" + ToHexSuffix(hash);
    AdjectivesHaveNoSpace();
    AnimalsHaveNoSpace();
    assert ' ' !in adjective && ' ' !in animal;
    assert ' ' !in tail by {
      assert forall i :: 0 <= i < 4 ==> ToHexSuffix(hash)[i] != ' ';
    }
    assert GenerateAnonymousName(clerkId) == adjective + " " + animal + " " + tail;
    SplitThree(adjective, animal, tail);
  }
}

=== FILE: comments.dfy ===
/**
  The comment handlers of the worker (workers/src/routes/comments.ts): posting a
  comment, deleting one's own comment, and listing a poll's comments page by page.
  The comment table is a map from comment id to row; the id and `created_at` of a new
  row, and the authenticated user id, are parameters.
*/
module Comments {
  import opened Wrappers
  import opened JsString
  import opened Schema
  import Pagination

  const MAX_COMMENT_LENGTH: nat := 500

  /** The trimmed content is 1 to 500 code units long. */
  predicate ContentOk(content: Option<string>) {
    content.Some? && 1 <= Length(Trim(content.value)) <= MAX_COMMENT_LENGTH
  }

  /**
    POST `/`. The content is checked first (`INVALID_INPUT` unless it trims to 1..500
    code units), then the poll must exist (`POLL_NOT_FOUND`); on any error nothing is
    inserted. The new row stores the trimmed content under the author's id, and no
    other row changes.
  */
  function PostComment(comments: map<string, Comment>, polls: set<string>, pollId: string, userId: string,
                       content: Option<string>, newId: string, now: int)
    : (r: Result<(map<string, Comment>, Comment), ErrorCode>)
    requires newId !in comments
    ensures r.Success? <==> ContentOk(content) && pollId in polls
    ensures !ContentOk(content) ==> r == Failure(InvalidInput)
    ensures ContentOk(content) && pollId !in polls ==> r == Failure(PollNotFound)
    ensures r.Success? ==>
      var (after, c) := r.value;
      && after == comments[newId := c]
      && c.pollId == pollId && c.userId == userId
      && c.content == Trim(content.value)
      && 1 <= Length(c.content) <= MAX_COMMENT_LENGTH
  {
    if !ContentOk(content) then Failure(InvalidInput)
    else if pollId !in polls then Failure(PollNotFound)
    else
      var c := Comment(newId, pollId, userId, Trim(content.value), now);
      Success((comments[newId := c], c))
  }

  /**
    DELETE `/:commentId`. A missing comment is `COMMENT_NOT_FOUND`, someone else's is
    `FORBIDDEN`; only the author's request removes the row, and it removes only that
    row.
  */
  function DeleteComment(comments: map<string, Comment>, commentId: string, userId: string)
    : (r: Result<map<string, Comment>, ErrorCode>)
    ensures commentId !in comments ==> r == Failure(CommentNotFound)
    ensures commentId in comments && comments[commentId].userId != userId ==> r == Failure(Forbidden)
    ensures r.Success? <==> commentId in comments && comments[commentId].userId == userId
    ensures r.Success? ==>
      && r.value.Keys == comments.Keys - {commentId}
      && (forall k :: k in r.value ==> r.value[k] == comments[k])
  {
    if commentId !in comments then Failure(CommentNotFound)
    else if comments[commentId].userId != userId then Failure(Forbidden)
    else Success(comments - {commentId})
  }

  function CreatedAt(c: Comment): int {
    c.createdAt
  }

  /** The `poll_id = ?` condition. */
  function OnPoll(pollId: string): Comment -> bool {
    (c: Comment) => c.pollId == pollId
  }

  /** Exactly the comments of the poll, in query order. */
  function OfPoll(rows: seq<Comment>, pollId: string): (r: seq<Comment>)
    ensures forall c :: c in r <==> c in rows && c.pollId == pollId
  {
    Pagination.Filter(rows, OnPoll(pollId))
  }

  /**
    GET `/`: one page of the poll's comments older than the cursor, in the query's
    newest-first order (`rows`), with the corrected `PageLimit` as page size. The page
    holds the first such comments, a next cursor (the `created_at` of the last item) is
    given exactly when more follow, and a page without one holds every such comment.
  */
  function ListComments(rows: seq<Comment>, pollId: string, cursor: Option<int>, limitParam: Option<int>)
    : (page: Pagination.Page<Comment>)
    ensures var matching := Pagination.OlderThan(OfPoll(rows, pollId), cursor, CreatedAt);
      var limit := Pagination.PageLimit(limitParam);
      && page.items == matching[..if limit < |matching| then limit else |matching|]
      && (page.nextCursor.Some? <==> |matching| > limit)
    ensures |page.items| <= Pagination.PageLimit(limitParam)
    ensures forall i :: 0 <= i < |page.items| ==>
      page.items[i] in rows && page.items[i].pollId == pollId
      && (cursor.Some? ==> page.items[i].createdAt < cursor.value)
    ensures page.nextCursor.None? ==> forall c ::
      c in rows && c.pollId == pollId && (cursor.Some? ==> c.createdAt < cursor.value) ==> c in page.items
    ensures page.nextCursor.Some? ==>
      |page.items| == Pagination.PageLimit(limitParam)
      && page.nextCursor.value == page.items[|page.items| - 1].createdAt
  {
    var matching := Pagination.OlderThan(OfPoll(rows, pollId), cursor, CreatedAt);
    Pagination.Paginate(matching, Pagination.PageLimit(limitParam), CreatedAt)
  }

  /** The author deleting a comment they just posted restores the table. */
  lemma PostThenDelete(comments: map<string, Comment>, polls: set<string>, pollId: string, userId: string,
                       content: Option<string>, newId: string, now: int)
    requires newId !in comments
    requires PostComment(comments, polls, pollId, userId, content, newId, now).Success?
    ensures DeleteComment(PostComment(comments, polls, pollId, userId, content, newId, now).value.0, newId, userId)
      == Success(comments)
  {
    var after := PostComment(comments, polls, pollId, userId, content, newId, now).value.0;
    assert after - {newId} == comments;
  }

  /**
    A comment just posted is the first item of the poll's first page: in a newest-first
    table without ties, none of whose rows was created after `now`, the new row leads.
  */
  lemma PostedCommentListed(comments: map<string, Comment>, polls: set<string>, pollId: string, userId: string,
                            content: Option<string>, newId: string, now: int, rows: seq<Comment>, limitParam: Option<int>)
    requires newId !in comments
    requires PostComment(comments, polls, pollId, userId, content, newId, now).Success?
    requires PostComment(comments, polls, pollId, userId, content, newId, now).value.1 in rows
    requires Pagination.StrictlyNewestFirst(rows, CreatedAt)
    requires forall i :: 0 <= i < |rows| ==> rows[i].createdAt <= now
    ensures var page := ListComments(rows, pollId, None, limitParam);
      |page.items| > 0 && page.items[0] == PostComment(comments, polls, pollId, userId, content, newId, now).value.1
  {
  }
}

=== FILE: cors.dfy ===
/**
  The origin decision of the worker's CORS middleware (workers/src/middleware/cors.ts):
  which `Origin` header is echoed back as allowed. The answer is the origin itself
  when allowed and the empty string otherwise. `envOrigins` is the `ALLOWED_ORIGINS`
  variable, `None` when unset.
*/
module Cors {
  import opened Wrappers
  import opened JsString

  const DEFAULT_ALLOWED_ORIGINS: seq<string> :=
    ["https://vibepulse.pages.dev", "http://localhost:5173", "http://localhost:3000"]

  const SCHEME: string := "http://"

  /** `http://localhost`: the prefix of the development exception. */
  const LOCALHOST_PREFIX: string := SCHEME + "localhost"

  /** `ALLOWED_ORIGINS.split(',').map(o => o.trim())`, or nothing when the variable is unset. */
  function EnvOrigins(envOrigins: Option<string>): (r: seq<string>)
    ensures envOrigins.None? ==> r == []
    ensures envOrigins.Some? ==> |r| == |Split(envOrigins.value, ',')|
    ensures envOrigins.Some? ==> forall k :: 0 <= k < |r| ==> r[k] == Trim(Split(envOrigins.value, ',')[k])
  {
    if envOrigins.None? then []
    else
      var parts := Split(envOrigins.value, ',');
      seq(|parts|, k requires 0 <= k < |parts| => Trim(parts[k]))
  }

  function Allowed(envOrigins: Option<string>): seq<string> {
    DEFAULT_ALLOWED_ORIGINS + EnvOrigins(envOrigins)
  }

  /** An origin comes from the variable exactly when it is one of its comma-separated entries, trimmed. */
  lemma EnvOriginsListed(envOrigins: string, origin: string)
    ensures origin in EnvOrigins(Some(envOrigins)) <==>
      exists k :: 0 <= k < |Split(envOrigins, ',')| && Trim(Split(envOrigins, ',')[k]) == origin
  {
    var env := EnvOrigins(Some(envOrigins));
    if origin in env {
      var k :| 0 <= k < |env| && env[k] == origin;
      assert Trim(Split(envOrigins, ',')[k]) == origin;
    }
  }

  /**
    The `origin` callback as written: a listed origin is echoed, so is any origin that
    merely starts with `http://localhost`, and everything else gets the empty string.
  */
  function AllowOriginAsWritten(origin: string, envOrigins: Option<string>): (r: string)
    ensures r == origin || r == ""
    ensures origin != "" ==> (r == origin <==> origin in Allowed(envOrigins) || StartsWith(origin, LOCALHOST_PREFIX))
  {
    if origin in Allowed(envOrigins) then origin
    else if StartsWith(origin, LOCALHOST_PREFIX) then origin
    else ""
  }

  /** A host name that merely starts with `localhost` passes the as-written prefix test. */
  lemma LookalikeAllowedAsWritten(envOrigins: Option<string>)
    ensures AllowOriginAsWritten(LOOKALIKE, envOrigins) == LOOKALIKE
  {
    assert StartsWith(LOOKALIKE, LOCALHOST_PREFIX);
  }

  /** The look-alike origin's host is not `localhost`. */
  lemma LookalikeHost()
    ensures HostOf(LOOKALIKE) == "localhost.evil.example"
  {
    assert StartsWith(LOOKALIKE, SCHEME);
    assert LOOKALIKE[|SCHEME|..] == "localhost.evil.example";
    TakeUntilPrefix("localhost.evil.example", [], ':');
  }

  /** A look-alike origin whose host only begins with `localhost`. */
  const LOOKALIKE: string := LOCALHOST_PREFIX + ".evil.example"

  /** The characters before the first `c`, or the whole string. */
  function TakeUntil(s: string, c: char): (r: string)
    ensures |r| <= |s| && r == s[..|r|]
    ensures c !in r
    ensures |r| < |s| ==> s[|r|] == c
  {
    if |s| == 0 || s[0] == c then [] else [s[0]] + TakeUntil(s[1..], c)
  }

  /** The host of an `http://` origin: what follows the scheme, up to the port. */
  function HostOf(origin: string): string {
    if StartsWith(origin, SCHEME) then TakeUntil(origin[|SCHEME|..], ':') else ""
  }

  predicate IsDigit(c: char) {
    '0' <= c <= '9'
  }

  /** `http://localhost`, optionally followed by `:` and a port number of at least one digit. */
  predicate IsLocalhostOrigin(origin: string) {
    && StartsWith(origin, LOCALHOST_PREFIX)
    && var rest := origin[|LOCALHOST_PREFIX|..];
       rest == [] || (|rest| >= 2 && rest[0] == ':' && forall i :: 1 <= i < |rest| ==> IsDigit(rest[i]))
  }

  /**
    The decision the development exception evidently intends: listed origins, and
    origins whose host is exactly `localhost`.
  */
  function AllowOrigin(origin: string, envOrigins: Option<string>): (r: string)
    ensures r == origin || r == ""
    ensures origin != "" ==> (r == origin <==> origin in Allowed(envOrigins) || IsLocalhostOrigin(origin))
  {
    if origin in Allowed(envOrigins) then origin
    else if IsLocalhostOrigin(origin) then origin
    else ""
  }

  /** Every non-empty origin the corrected callback echoes is listed or has the host `localhost`. */
  lemma AllowOriginHost(origin: string, envOrigins: Option<string>)
    requires AllowOrigin(origin, envOrigins) != ""
    ensures origin in Allowed(envOrigins) || HostOf(origin) == "localhost"
  {
    if origin !in Allowed(envOrigins) {
      LocalhostHost(origin);
    }
  }

  /** An origin accepted by the localhost exception has the host `localhost`. */
  lemma LocalhostHost(origin: string)
    requires IsLocalhostOrigin(origin)
    ensures HostOf(origin) == "localhost"
  {
    var after := origin[|SCHEME|..];
    assert after == "localhost" + origin[|LOCALHOST_PREFIX|..];
    TakeUntilPrefix("localhost", origin[|LOCALHOST_PREFIX|..], ':');
  }

  lemma {:induction false} TakeUntilPrefix(a: string, b: string, c: char)
    requires c !in a
    requires b == [] || b[0] == c
    ensures TakeUntil(a + b, c) == a
    decreases |a|
  {
    if |a| == 0 {
      assert a + b == b;
    } else {
      assert (a + b)[1..] == a[1..] + b;
      TakeUntilPrefix(a[1..], b, c);
      assert [a[0]] + a[1..] == a;
    }
  }

  /** The corrected decision differs from the written one only by refusing look-alike hosts. */
  lemma CorrectionOnlyRefusesLookalikes(origin: string, envOrigins: Option<string>)
    ensures AllowOrigin(origin, envOrigins) != AllowOriginAsWritten(origin, envOrigins) ==>
      && AllowOrigin(origin, envOrigins) == ""
      && StartsWith(origin, LOCALHOST_PREFIX)
      && !IsLocalhostOrigin(origin)
  {
  }
}

=== FILE: createpollform.dfy ===
/**
  The poll-creation form of the frontend: editing the option list and the tag list,
  the validity test that enables the submit button, and the payload it sends. The
  model works on the form's values; rendering and the navigation after submit are
  not modelled.
*/
module CreatePollForm {
  import opened Wrappers
  import opened JsString
  import Polls

  const MAX_OPTIONS: nat := 4
  const MIN_OPTIONS: nat := 2
  const MAX_TAGS: nat := 5
  /** Longest tag the form accepts, in UTF-16 code units. */
  const MAX_TAG_LENGTH: nat := 20

  /** The option list as the form starts: two empty inputs. */
  const INITIAL_OPTIONS: seq<string> := ["", ""]

  /** The option count stays within the form's bounds. */
  predicate OptionsInBounds(options: seq<string>) {
    MIN_OPTIONS <= |options| <= MAX_OPTIONS
  }

  /** The "add option" button: a new empty input, unless four are already there. */
  function AddOption(options: seq<string>): (r: seq<string>)
    ensures |r| >= |options| && r[..|options|] == options
    ensures |r| == |options| + 1 <==> |options| < MAX_OPTIONS
    ensures |r| != |options| + 1 ==> r == options
    ensures |r| > |options| ==> r[|options|] == ""
    ensures |options| <= MAX_OPTIONS ==> |r| <= MAX_OPTIONS
  {
    if |options| < MAX_OPTIONS then options + [""] else options
  }

  /** `s.filter((_, i) => i !== index)`: every entry whose position is not `index`. */
  function WithoutIndex(s: seq<string>, index: int): (r: seq<string>)
    ensures 0 <= index < |s| ==> r == s[..index] + s[index + 1..]
    ensures !(0 <= index < |s|) ==> r == s
  {
    if |s| == 0 then []
    else
      var init := WithoutIndex(s[..|s| - 1], index);
      if |s| - 1 == index then init else init + [s[|s| - 1]]
  }

  /**
    A remove button: drops the input at `index`, unless only two are left. An index
    outside the list removes nothing.
  */
  function RemoveOption(options: seq<string>, index: int): (r: seq<string>)
    ensures |options| > MIN_OPTIONS && 0 <= index < |options| ==>
      r == options[..index] + options[index + 1..]
    ensures |options| <= MIN_OPTIONS || !(0 <= index < |options|) ==> r == options
    ensures |options| >= MIN_OPTIONS ==> |r| >= MIN_OPTIONS
  {
    if |options| > MIN_OPTIONS then WithoutIndex(options, index) else options
  }

  /** Typing into the input at `index`: only that position changes. */
  function UpdateOption(options: seq<string>, index: int, value: string): (r: seq<string>)
    requires 0 <= index < |options|
    ensures |r| == |options|
    ensures r[index] == value
    ensures forall j :: 0 <= j < |r| && j != index ==> r[j] == options[j]
  {
    options[index := value]
  }

  /** Every sequence of option edits keeps the count between two and four. */
  lemma OptionEditsKeepBounds(options: seq<string>, index: int, value: string)
    requires OptionsInBounds(options)
    ensures OptionsInBounds(AddOption(options))
    ensures OptionsInBounds(RemoveOption(options, index))
    ensures 0 <= index < |options| ==> OptionsInBounds(UpdateOption(options, index, value))
  {
  }

  /** `replace(/^#/, '')`: one leading `#` is dropped. */
  function StripHash(s: string): (r: string)
    ensures |s| > 0 && s[0] == '#' ==> s == "#" + r
    ensures !(|s| > 0 && s[0] == '#') ==> r == s
  {
    if |s| > 0 && s[0] == '#' then s[1..] else s
  }

  /** The tag as stored: trimmed, lower-cased, one leading `#` dropped. */
  function NormalizeTag(raw: string): (r: string)
    ensures |r| <= |raw|
    ensures forall i :: 0 <= i < |r| ==> !('A' <= r[i] <= 'Z')
  {
    var lowered := ToLower(Trim(raw));
    var r := StripHash(lowered);
    assert forall i :: 0 <= i < |r| ==> r[i] in lowered;
    r
  }

  /** No tag appears twice. */
  ghost predicate NoDuplicates(tags: seq<string>) {
    forall i, j :: 0 <= i < j < |tags| ==> tags[i] != tags[j]
  }

  /** A tag the form could have produced: non-empty and at most 20 code units. */
  predicate TagOk(tag: string) {
    tag != "" && Length(tag) <= MAX_TAG_LENGTH
  }

  /** The tag list the form keeps: at most five distinct acceptable tags. */
  ghost predicate TagsValid(tags: seq<string>) {
    && |tags| <= MAX_TAGS
    && NoDuplicates(tags)
    && forall i :: 0 <= i < |tags| ==> TagOk(tags[i])
  }

  /** Whether `AddTag` appends the normalised tag. */
  predicate TagAdmitted(tags: seq<string>, raw: string) {
    var cleaned := NormalizeTag(raw);
    TagOk(cleaned) && |tags| < MAX_TAGS && cleaned !in tags
  }

  /**
    Confirming a tag: the normalised tag is appended when it is non-empty, at most 20
    code units, not yet listed and fewer than five tags are present; otherwise the
    list is unchanged. Either way the tag input is cleared, which is not modelled.
  */
  function AddTag(tags: seq<string>, raw: string): (r: seq<string>)
    ensures |r| >= |tags| && r[..|tags|] == tags
    ensures |r| == |tags| + 1 <==> TagAdmitted(tags, raw)
    ensures |r| != |tags| + 1 ==> r == tags
    ensures |r| > |tags| ==> r[|tags|] == NormalizeTag(raw) && r[|tags|] !in tags
  {
    var cleaned := NormalizeTag(raw);
    if TagOk(cleaned) && |tags| < MAX_TAGS && cleaned !in tags then tags + [cleaned] else tags
  }

  /** Adding a tag keeps the list duplicate-free with at most five acceptable entries. */
  lemma AddTagKeepsTagsValid(tags: seq<string>, raw: string)
    requires TagsValid(tags)
    ensures TagsValid(AddTag(tags, raw))
  {
  }

  /** `tags.filter(t => t !== tag)`. */
  function RemoveTag(tags: seq<string>, tag: string): (r: seq<string>)
    ensures multiset(r) == multiset(tags)[tag := 0]
    ensures forall t :: t in r <==> t in tags && t != tag
    ensures |r| <= |tags|
  {
    if |tags| == 0 then []
    else
      var init := RemoveTag(tags[..|tags| - 1], tag);
      var last := tags[|tags| - 1];
      assert tags == tags[..|tags| - 1] + [last];
      if last == tag then init else init + [last]
  }

  /** Removing a tag that is not listed changes nothing. */
  lemma {:induction false} RemoveAbsentTag(tags: seq<string>, tag: string)
    requires tag !in tags
    ensures RemoveTag(tags, tag) == tags
  {
    if |tags| > 0 {
      RemoveAbsentTag(tags[..|tags| - 1], tag);
      assert tags == tags[..|tags| - 1] + [tags[|tags| - 1]];
    }
  }

  /**
    In a duplicate-free list, removing the tag at position `k` closes the gap: the
    tags before and after it keep their order.
  */
  lemma {:induction false} RemoveTagKeepsOrder(tags: seq<string>, k: nat)
    requires NoDuplicates(tags)
    requires k < |tags|
    ensures RemoveTag(tags, tags[k]) == tags[..k] + tags[k + 1..]
  {
    var n := |tags|;
    var init, last, tag := tags[..n - 1], tags[n - 1], tags[k];
    assert forall i :: 0 <= i < n - 1 ==> init[i] == tags[i];
    if k == n - 1 {
      assert tag !in init by {
        forall i | 0 <= i < n - 1 ensures init[i] != tag {
          assert tags[i] != tags[n - 1];
        }
      }
      RemoveAbsentTag(init, tag);
      assert RemoveTag(tags, tag) == init;
      assert tags[k + 1..] == [];
    } else {
      assert last != tag by { assert tags[k] != tags[n - 1]; }
      assert NoDuplicates(init) by {
        forall i, j | 0 <= i < j < |init| ensures init[i] != init[j] {
          assert tags[i] != tags[j];
        }
      }
      assert init[k] == tag;
      RemoveTagKeepsOrder(init, k);
      assert RemoveTag(tags, tag) == RemoveTag(init, tag) + [last];
      assert tags[..k] == init[..k];
      assert tags[k + 1..] == init[k + 1..] + [last];
    }
  }

  /** Removing a tag keeps the list duplicate-free. */
  lemma {:induction false} RemoveTagKeepsNoDuplicates(tags: seq<string>, tag: string)
    requires NoDuplicates(tags)
    ensures NoDuplicates(RemoveTag(tags, tag))
  {
    if |tags| > 0 {
      var init, last := tags[..|tags| - 1], tags[|tags| - 1];
      assert NoDuplicates(init) by {
        forall i, j | 0 <= i < j < |init| ensures init[i] != init[j] {
          assert tags[i] != tags[j];
        }
      }
      RemoveTagKeepsNoDuplicates(init, tag);
      if last != tag {
        var r0 := RemoveTag(init, tag);
        assert last !in init by {
          forall i | 0 <= i < |init| ensures init[i] != last {
            assert tags[i] != tags[|tags| - 1];
          }
        }
        assert last !in r0;
        assert RemoveTag(tags, tag) == r0 + [last];
      }
    }
  }

  /** Removing a tag keeps the list valid. */
  lemma RemoveTagKeepsTagsValid(tags: seq<string>, tag: string)
    requires TagsValid(tags)
    ensures TagsValid(RemoveTag(tags, tag))
  {
    RemoveTagKeepsNoDuplicates(tags, tag);
  }

  /** The submit button is enabled: a 5..200 unit question and no blank option among at least two. */
  predicate IsValid(question: string, options: seq<string>) {
    && 5 <= Length(Trim(question)) <= 200
    && (forall i :: 0 <= i < |options| ==> Length(Trim(options[i])) > 0)
    && |options| >= MIN_OPTIONS
  }

  /** What the form sends: the trimmed question, every option trimmed, and the tags if any. */
  datatype Payload = Payload(question: string, options: seq<string>, tags: Option<seq<string>>)

  function SubmitPayload(question: string, options: seq<string>, tags: seq<string>): (p: Payload)
    ensures p.question == Trim(question)
    ensures p.options == TrimAll(options)
    ensures p.tags.Some? <==> |tags| > 0
    ensures p.tags.Some? ==> p.tags.value == tags
  {
    Payload(Trim(question), TrimAll(options), if |tags| > 0 then Some(tags) else None)
  }

  /** The request body the creation route reads; it does not read the tags. */
  function AsRequest(p: Payload): Polls.CreatePollBody {
    Polls.CreatePollBody(Some(p.question), Some(p.options), None, None)
  }

  /** A list of non-empty trimmed strings passes the server's trim-and-filter unchanged. */
  lemma {:induction false} TrimmedKept(s: seq<string>)
    requires forall i :: 0 <= i < |s| ==> s[i] != "" && IsTrimmed(s[i])
    ensures Polls.NonEmptyTrimmed(s) == s
  {
    if |s| > 0 {
      TrimmedKept(s[1..]);
      TrimOfTrimmed(s[0]);
      assert Polls.NonEmptyTrimmed(s) == [s[0]] + Polls.NonEmptyTrimmed(s[1..]);
    }
  }

  /** When no trimmed option is blank, the server's filter keeps all of them in order. */
  lemma {:induction false} NoBlankOptionsKept(options: seq<string>)
    requires forall i :: 0 <= i < |options| ==> Trim(options[i]) != ""
    ensures Polls.NonEmptyTrimmed(TrimAll(options)) == TrimAll(options)
  {
    var t := TrimAll(options);
    forall i | 0 <= i < |t| ensures t[i] != "" && IsTrimmed(t[i]) {
      TrimIsTrimmed(options[i]);
    }
    TrimmedKept(t);
  }

  /**
    A form that enables its submit button, with the four-option cap the form keeps,
    sends a request the creation route accepts, and the poll it stores has exactly the
    trimmed question and the trimmed options in the order they were entered.
  */
  lemma ValidFormIsAccepted(st: Polls.Store, question: string, options: seq<string>, tags: seq<string>,
                            userId: Option<string>, newId: string, now: int)
    requires IsValid(question, options)
    requires |options| <= MAX_OPTIONS
    requires newId !in st.polls
    ensures var r := Polls.CreatePoll(st, AsRequest(SubmitPayload(question, options, tags)), userId, newId, now);
      && r.Success?
      && r.value.polls[newId].question == Trim(question)
      && r.value.polls[newId].options == TrimAll(options)
  {
    var body := AsRequest(SubmitPayload(question, options, tags));
    TrimIdempotent(question);
    assert Polls.QuestionOk(body.question);
    assert forall i :: 0 <= i < |options| ==> Trim(options[i]) != "";
    NoBlankOptionsKept(options);
    assert Polls.CreateAccepts(body);
  }
}

=== FILE: expirationtimer.dfy ===
/**
  The countdown shown on a poll card: the remaining milliseconds are cut into whole
  days, hours, minutes and seconds, and the two largest non-zero units are shown.
  The remaining time is a parameter (expiry minus the current clock).
*/
module ExpirationTimer {

  const SECOND: nat := 1000
  const MINUTE: nat := 60 * SECOND
  const HOUR: nat := 60 * MINUTE
  const DAY: nat := 24 * HOUR

  /** The label the timer shows; the Korean wording around the numbers is not modelled. */
  datatype Label =
    | Closed
    | DaysHours(days: nat, hours: nat)
    | HoursMinutes(hours: nat, minutes: nat)
    | MinutesSeconds(minutes: nat, seconds: nat)
    | Seconds(seconds: nat)

  /**
    What a label promises about the time left, as a reader of the timer takes it:
    the shown units are whole units of time left, the smaller one below its carry,
    and the time left is within one smaller unit of what is shown.
  */
  ghost predicate Describes(l: Label, ms: int) {
    match l
    case Closed => ms <= 0
    case DaysHours(d, h) =>
      && d >= 1 && h < 24
      && d * 86_400_000 + h * 3_600_000 <= ms < d * 86_400_000 + (h + 1) * 3_600_000
    case HoursMinutes(h, m) =>
      && 1 <= h < 24 && m < 60
      && h * 3_600_000 + m * 60_000 <= ms < h * 3_600_000 + (m + 1) * 60_000
    case MinutesSeconds(m, s) =>
      && 1 <= m < 60 && s < 60
      && m * 60_000 + s * 1000 <= ms < m * 60_000 + (s + 1) * 1000
    case Seconds(s) =>
      && s < 60
      && 0 < ms && s * 1000 <= ms < (s + 1) * 1000
  }

  /** `formatTimeRemaining`: floor divisions of the remaining milliseconds. */
  function FormatTimeRemaining(ms: int): (l: Label)
    ensures Describes(l, ms)
  {
    if ms <= 0 then Closed
    else
      var seconds := ms / SECOND;
      var minutes := seconds / 60;
      var hours := minutes / 60;
      var days := hours / 24;
      if days > 0 then DaysHours(days, hours % 24)
      else if hours > 0 then HoursMinutes(hours, minutes % 60)
      else if minutes > 0 then MinutesSeconds(minutes, seconds % 60)
      else Seconds(seconds)
  }

  /** Cutting into seconds, then minutes, then hours, is cutting into the larger unit directly. */
  lemma FloorChain(ms: int)
    requires ms > 0
    ensures ms / 1000 / 60 == ms / 60_000
    ensures ms / 1000 / 60 / 60 == ms / 3_600_000
    ensures ms / 1000 / 60 / 60 / 24 == ms / 86_400_000
  {
  }

  /** Only one label describes a given remaining time, so the timer's label is the true one. */
  lemma DescribesUnique(l: Label, ms: int)
    requires Describes(l, ms)
    ensures l == FormatTimeRemaining(ms)
  {
    match l
    case Closed =>
    case DaysHours(d, h) =>
      FloorChain(ms);
      assert ms / 3_600_000 == d * 24 + h;
      assert ms / 86_400_000 == d;
    case HoursMinutes(h, m) =>
      FloorChain(ms);
      assert ms / 60_000 == h * 60 + m;
      assert ms / 3_600_000 == h;
      assert ms / 86_400_000 == 0;
    case MinutesSeconds(m, s) =>
      FloorChain(ms);
      assert ms / 1000 == m * 60 + s;
      assert ms / 60_000 == m;
      assert ms / 3_600_000 == 0;
    case Seconds(s) =>
      FloorChain(ms);
      assert ms / 1000 == s;
      assert ms / 60_000 == 0;
  }

  /** `isUrgent`: time is left, but less than an hour. */
  predicate IsUrgent(ms: int) {
    0 < ms < HOUR
  }

  /** The timer is urgent exactly when its label shows minutes and seconds or seconds only. */
  lemma UrgentIffUnderAnHour(ms: int)
    ensures IsUrgent(ms) <==> FormatTimeRemaining(ms).MinutesSeconds? || FormatTimeRemaining(ms).Seconds?
  {
  }
}

=== FILE: jsstring.dfy ===
/**
  The few JavaScript string operations the modelled code relies on, with the
  semantics of ECMAScript: `.length` counts UTF-16 code units, `trim` removes the
  WhiteSpace and LineTerminator characters at both ends, `split` on a one-character
  separator keeps empty pieces, `startsWith` compares a prefix.
  Strings are Dafny strings (sequences of Unicode scalar values); a character
  outside the Basic Multilingual Plane is one `char` here and two code units in
  JavaScript, which `Utf16` makes explicit.
*/
module JsString {
  import opened Wrappers

  /** JavaScript truthiness of an optional string: present and not empty. */
  predicate Truthy(s: Option<string>) {
    s.Some? && s.value != ""
  }

  /** A UTF-16 code unit, the value `charCodeAt` returns. */
  type CodeUnit = u: int | 0 <= u < 0x1_0000

  /** The UTF-16 encoding of one character: itself, or a surrogate pair. */
  function CharUnits(c: char): (u: seq<CodeUnit>)
    ensures 1 <= |u| <= 2
    ensures |u| == 1 <==> (c as int) < 0x1_0000
  {
    var v := c as int;
    if v < 0x1_0000 then [v]
    else [0xD800 + (v - 0x1_0000) / 0x400, 0xDC00 + (v - 0x1_0000) % 0x400]
  }

  /** The code units JavaScript stores for `s`. */
  function Utf16(s: string): (u: seq<CodeUnit>)
    ensures |s| <= |u| <= 2 * |s|
  {
    if |s| == 0 then [] else CharUnits(s[0]) + Utf16(s[1..])
  }

  /** JavaScript's `s.length`. */
  function Length(s: string): nat {
    |Utf16(s)|
  }

  /** A string made only of Basic Multilingual Plane characters has one code unit per character. */
  lemma {:induction false} BmpLength(s: string)
    requires forall i :: 0 <= i < |s| ==> (s[i] as int) < 0x1_0000
    ensures Length(s) == |s|
    ensures Utf16(s) == seq(|s|, i requires 0 <= i < |s| => s[i] as int)
  {
    if |s| > 0 {
      BmpLength(s[1..]);
    }
  }

  lemma {:induction false} Utf16Append(a: string, b: string)
    ensures Utf16(a + b) == Utf16(a) + Utf16(b)
  {
    if |a| > 0 {
      assert (a + b)[1..] == a[1..] + b;
      Utf16Append(a[1..], b);
    } else {
      assert a + b == b;
    }
  }

  /** ECMAScript's WhiteSpace and LineTerminator code points: what `trim` removes. */
  predicate IsWhitespace(c: char) {
    || c == '\t' || c == '\n' || c == '\U{000B}' || c == '\U{000C}' || c == '\r' || c == ' '
    || c == '\U{00A0}' || c == '\U{1680}' || ('\U{2000}' <= c <= '\U{200A}')
    || c == '\U{2028}' || c == '\U{2029}' || c == '\U{202F}' || c == '\U{205F}'
    || c == '\U{3000}' || c == '\U{FEFF}'
  }

  predicate AllWhitespace(s: string) {
    forall i :: 0 <= i < |s| ==> IsWhitespace(s[i])
  }

  /** `s` with its leading whitespace removed: a suffix of `s` whose dropped part is all whitespace. */
  function TrimStart(s: string): (r: string)
    ensures |r| <= |s| && r == s[|s| - |r|..]
    ensures AllWhitespace(s[..|s| - |r|])
    ensures |r| > 0 ==> !IsWhitespace(r[0])
  {
    if |s| > 0 && IsWhitespace(s[0]) then TrimStart(s[1..]) else s
  }

  /** `s` with its trailing whitespace removed: a prefix of `s` whose dropped part is all whitespace. */
  function TrimEnd(s: string): (r: string)
    ensures |r| <= |s| && r == s[..|r|]
    ensures AllWhitespace(s[|r|..])
    ensures |r| > 0 ==> !IsWhitespace(r[|r| - 1])
  {
    if |s| > 0 && IsWhitespace(s[|s| - 1]) then TrimEnd(s[..|s| - 1]) else s
  }

  /** JavaScript's `s.trim()`. */
  function Trim(s: string): string {
    TrimEnd(TrimStart(s))
  }

  /** Every string of `ss` trimmed, in order: `ss.map(s => s.trim())`. */
  function TrimAll(ss: seq<string>): (r: seq<string>)
    ensures |r| == |ss|
    ensures forall i :: 0 <= i < |r| ==> r[i] == Trim(ss[i])
  {
    seq(|ss|, i requires 0 <= i < |ss| => Trim(ss[i]))
  }

  /** Neither starts nor ends with whitespace: what `trim` returns. */
  predicate IsTrimmed(s: string) {
    |s| > 0 ==> !IsWhitespace(s[0]) && !IsWhitespace(s[|s| - 1])
  }

  /** Trim keeps a middle slice of `s` and drops only whitespace around it. */
  lemma TrimIsMiddle(s: string)
    ensures exists i, j ::
      && 0 <= i <= j <= |s|
      && Trim(s) == s[i..j]
      && AllWhitespace(s[..i])
      && AllWhitespace(s[j..])
    ensures IsTrimmed(Trim(s))
  {
    var t := TrimStart(s);
    var i := |s| - |t|;
    var j := i + |TrimEnd(t)|;
    assert Trim(s) == s[i..j];
    assert s[j..] == t[|TrimEnd(t)|..];
  }

  /** The result of Trim neither starts nor ends with whitespace. */
  lemma TrimIsTrimmed(s: string)
    ensures IsTrimmed(Trim(s))
  {
  }

  /** A string that neither starts nor ends with whitespace is its own trim. */
  lemma TrimOfTrimmed(s: string)
    requires IsTrimmed(s)
    ensures Trim(s) == s
  {
  }

  /** Trimming twice is trimming once. */
  lemma TrimIdempotent(s: string)
    ensures Trim(Trim(s)) == Trim(s)
  {
    TrimIsMiddle(s);
    TrimOfTrimmed(Trim(s));
  }

  /** The trim is empty exactly when the string is all whitespace. */
  lemma TrimEmptyIff(s: string)
    ensures Trim(s) == [] <==> AllWhitespace(s)
  {
    TrimIsMiddle(s);
    if Trim(s) == [] {
      var t := TrimStart(s);
      assert s == s[..|s| - |t|] + t;
      assert t == t[|TrimEnd(t)|..];
    }
  }

  /** `toLowerCase` on one character, for the ASCII letters. */
  function LowerChar(c: char): char {
    if 'A' <= c <= 'Z' then (c as int + 32) as char else c
  }

  /** `s.toLowerCase()`, restricted to the ASCII letters. */
  function ToLower(s: string): (r: string)
    ensures |r| == |s|
    ensures forall i :: 0 <= i < |r| ==> !('A' <= r[i] <= 'Z')
    ensures forall i :: 0 <= i < |r| && !('A' <= s[i] <= 'Z') ==> r[i] == s[i]
  {
    seq(|s|, i requires 0 <= i < |s| => LowerChar(s[i]))
  }

  /** `s.startsWith(p)`. */
  predicate StartsWith(s: string, p: string) {
    |p| <= |s| && s[..|p|] == p
  }

  /** `s.split(sep)` for a one-character separator: every piece, empty ones included. */
  function Split(s: string, sep: char): (parts: seq<string>)
    ensures |parts| >= 1
    decreases |s|
  {
    if |s| == 0 then [""]
    else
      var rest := Split(s[1..], sep);
      if s[0] == sep then [""] + rest
      else [[s[0]] + rest[0]] + rest[1..]
  }

  /** `parts.join(sep)`. */
  function Join(parts: seq<string>, sep: char): string
    requires |parts| >= 1
  {
    if |parts| == 1 then parts[0] else parts[0] + [sep] + Join(parts[1..], sep)
  }

  predicate NoSeparator(parts: seq<string>, sep: char) {
    forall k :: 0 <= k < |parts| ==> sep !in parts[k]
  }

  /** Splitting then joining gives back the string, and no piece holds the separator. */
  lemma {:induction false} SplitJoin(s: string, sep: char)
    ensures Join(Split(s, sep), sep) == s
    ensures NoSeparator(Split(s, sep), sep)
    decreases |s|
  {
    if |s| > 0 {
      var rest := Split(s[1..], sep);
      SplitJoin(s[1..], sep);
      if s[0] == sep {
        assert Split(s, sep)[1..] == rest;
      } else {
        var parts := Split(s, sep);
        assert parts[1..] == rest[1..];
        if |rest| == 1 {
          assert Join(parts, sep) == [s[0]] + rest[0];
        } else {
          assert Join(rest, sep) == rest[0] + [sep] + Join(rest[1..], sep);
        }
        assert s == [s[0]] + s[1..];
        assert sep !in [s[0]] + rest[0] by {
          assert sep !in rest[0];
        }
      }
    }
  }

  /** Joining pieces free of the separator then splitting gives back the pieces. */
  lemma {:induction false} JoinSplit(parts: seq<string>, sep: char)
    requires |parts| >= 1
    requires NoSeparator(parts, sep)
    ensures Split(Join(parts, sep), sep) == parts
    decreases |parts|, |parts[0]|
  {
    var p := parts[0];
    if |p| == 0 {
      if |parts| > 1 {
        JoinSplit(parts[1..], sep);
        var j := Join(parts, sep);
        assert j == [sep] + Join(parts[1..], sep);
        assert j[1..] == Join(parts[1..], sep);
      }
    } else {
      var shorter := [p[1..]] + parts[1..];
      assert shorter[1..] == parts[1..];
      assert NoSeparator(shorter, sep) by {
        assert forall c :: c in p[1..] ==> c in p;
      }
      JoinSplit(shorter, sep);
      var j := Join(parts, sep);
      if |parts| == 1 {
        assert j[1..] == Join(shorter, sep);
      } else {
        assert j[1..] == Join(shorter, sep);
      }
      assert j[0] == p[0] && p[0] != sep;
      assert [p[0]] + p[1..] == p;
    }
  }
}

=== FILE: kv.dfy ===
/**
  The per-poll aggregate counter kept in the key-value cache, and the result
  formatter with its k-anonymity threshold (workers/src/utils/kv.ts).
  The cache read and write are left to the caller: `IncrementVoteCount` receives
  what the cache returned for the key (`None` when missing) and returns what is
  written back. Percentages are exact reals.
*/
module Kv {
  import opened Wrappers
  import opened JsString

  /** `VoteCounts`: a total, one count per option, and per-option counts per gender and per age group. */
  datatype VoteCounts = VoteCounts(
    total: nat,
    options: seq<nat>,
    byGender: map<string, seq<nat>>,
    byAgeGroup: map<string, seq<nat>>)

  /** Demographic buckets smaller than this are withheld from formatted results. */
  const MIN_SAMPLE_SIZE: nat := 5

  function Zeros(n: nat): (z: seq<nat>)
    ensures |z| == n
    ensures forall i :: 0 <= i < n ==> z[i] == 0
  {
    seq(n, i => 0)
  }

  function Sum(s: seq<nat>): nat {
    if |s| == 0 then 0 else s[0] + Sum(s[1..])
  }

  /** Every array of the entry has one slot per option of the poll. */
  ghost predicate Shaped(c: VoteCounts, n: nat) {
    && |c.options| == n
    && (forall g :: g in c.byGender ==> |c.byGender[g]| == n)
    && (forall a :: a in c.byAgeGroup ==> |c.byAgeGroup[a]| == n)
  }

  /** The counter invariant: the total is the sum of the option counts and no bucket exceeds it. */
  ghost predicate Consistent(c: VoteCounts) {
    && c.total == Sum(c.options)
    && (forall g :: g in c.byGender ==> Sum(c.byGender[g]) <= c.total)
    && (forall a :: a in c.byAgeGroup ==> Sum(c.byAgeGroup[a]) <= c.total)
  }

  /** `initCounts(optionCount)`: the entry of a poll nobody has voted on. */
  function InitCounts(optionCount: nat): (c: VoteCounts)
    ensures Shaped(c, optionCount) && Consistent(c)
    ensures c.total == 0 && Sum(c.options) == 0
    ensures forall i :: 0 <= i < optionCount ==> c.options[i] == 0
    ensures c.byGender == map[] && c.byAgeGroup == map[]
  {
    SumZeros(optionCount);
    VoteCounts(0, Zeros(optionCount), map[], map[])
  }

  lemma {:induction false} SumZeros(n: nat)
    ensures Sum(Zeros(n)) == 0
  {
    if n > 0 {
      assert Zeros(n)[1..] == Zeros(n - 1);
      SumZeros(n - 1);
    }
  }

  /** Adding one to one slot adds one to the sum. */
  lemma {:induction false} SumBump(s: seq<nat>, i: nat)
    requires i < |s|
    ensures Sum(s[i := s[i] + 1]) == Sum(s) + 1
  {
    if i > 0 {
      assert s[i := s[i] + 1][1..] == s[1..][i - 1 := s[i] + 1];
      SumBump(s[1..], i - 1);
    }
  }

  /** One vote for option `i` in the bucket of `key`, creating a zeroed bucket the first time. */
  function BumpBucket(m: map<string, seq<nat>>, key: Option<string>, i: nat, n: nat): map<string, seq<nat>>
    requires i < n
    requires forall k :: k in m ==> |m[k]| == n
  {
    if Truthy(key) then
      var before := if key.value in m then m[key.value] else Zeros(n);
      m[key.value := before[i := before[i] + 1]]
    else m
  }

  /**
    What one vote does to a bucket map: with no truthy key nothing changes; otherwise
    only the key's bucket changes, it has `n` slots, and its slot `i` gains one vote
    over the previous bucket (a zero bucket when the key was new).
  */
  ghost predicate BucketVoted(before: map<string, seq<nat>>, after: map<string, seq<nat>>,
                              key: Option<string>, i: nat, n: nat)
    requires i < n
  {
    if !Truthy(key) then after == before
    else
      var k := key.value;
      var old_ := if k in before then before[k] else Zeros(n);
      && after.Keys == before.Keys + {k}
      && (forall g :: g in before && g != k ==> after[g] == before[g])
      && |after[k]| == n == |old_|
      && after[k][i] == old_[i] + 1
      && (forall j :: 0 <= j < n && j != i ==> after[k][j] == old_[j])
  }

  /**
    `incrementVoteCount`: the read-modify-write of one vote. A missing entry starts
    from `initCounts(optionCount)`; the total and the chosen option go up by one,
    every other option keeps its count, and the gender and age-group buckets each
    record the vote independently when their key is truthy.
  */
  function IncrementVoteCount(current: Option<VoteCounts>, optionIndex: int, optionCount: nat,
                              gender: Option<string>, ageGroup: Option<string>): (r: VoteCounts)
    requires 0 <= optionIndex < optionCount
    requires current.Some? ==> Shaped(current.value, optionCount)
    ensures Shaped(r, optionCount)
    ensures var base := current.GetOr(InitCounts(optionCount));
      && r.total == base.total + 1
      && r.options[optionIndex] == base.options[optionIndex] + 1
      && (forall j :: 0 <= j < optionCount && j != optionIndex ==> r.options[j] == base.options[j])
      && BucketVoted(base.byGender, r.byGender, gender, optionIndex, optionCount)
      && BucketVoted(base.byAgeGroup, r.byAgeGroup, ageGroup, optionIndex, optionCount)
  {
    var base := current.GetOr(InitCounts(optionCount));
    VoteCounts(
      base.total + 1,
      base.options[optionIndex := base.options[optionIndex] + 1],
      BumpBucket(base.byGender, gender, optionIndex, optionCount),
      BumpBucket(base.byAgeGroup, ageGroup, optionIndex, optionCount))
  }

  /** A bucket's sum goes up by one exactly when its key was the vote's truthy key. */
  lemma BucketVotedSums(before: map<string, seq<nat>>, after: map<string, seq<nat>>,
                        key: Option<string>, i: nat, n: nat)
    requires i < n
    requires forall k :: k in before ==> |before[k]| == n
    requires BucketVoted(before, after, key, i, n)
    ensures forall g :: g in after ==>
      Sum(after[g]) == (if g in before then Sum(before[g]) else 0) + (if Truthy(key) && g == key.value then 1 else 0)
  {
    if Truthy(key) {
      var k := key.value;
      var old_ := if k in before then before[k] else Zeros(n);
      assert after[k] == old_[i := old_[i] + 1];
      SumBump(old_, i);
      SumZeros(n);
    }
  }

  /** One increment keeps `total == sum(options)` and every bucket within the total. */
  lemma IncrementPreservesConsistency(current: Option<VoteCounts>, optionIndex: int, optionCount: nat,
                                      gender: Option<string>, ageGroup: Option<string>)
    requires 0 <= optionIndex < optionCount
    requires current.Some? ==> Shaped(current.value, optionCount) && Consistent(current.value)
    ensures Consistent(IncrementVoteCount(current, optionIndex, optionCount, gender, ageGroup))
  {
    var base := current.GetOr(InitCounts(optionCount));
    var r := IncrementVoteCount(current, optionIndex, optionCount, gender, ageGroup);
    assert r.options == base.options[optionIndex := base.options[optionIndex] + 1];
    SumBump(base.options, optionIndex);
    BucketVotedSums(base.byGender, r.byGender, gender, optionIndex, optionCount);
    BucketVotedSums(base.byAgeGroup, r.byAgeGroup, ageGroup, optionIndex, optionCount);
  }

  // ---------------------------------------------------------------- formatting

  /** One option of a formatted result. */
  datatype OptionResult = OptionResult(index: nat, count: nat, percentage: real)

  /** One disclosed demographic bucket: its percentages and its own vote count. */
  datatype BucketResult = BucketResult(options: seq<real>, count: nat)

  /** The `formatResults` response; a breakdown is `None` when no bucket clears the threshold. */
  datatype Formatted = Formatted(
    total: nat,
    options: seq<OptionResult>,
    byGender: Option<map<string, BucketResult>>,
    byAgeGroup: Option<map<string, BucketResult>>)

  /** `count / total * 100`, and 0 for an empty denominator. */
  function Percentage(count: nat, total: nat): real {
    if total > 0 then (count as real / total as real) * 100.0 else 0.0
  }

  function Shares(counts: seq<nat>, total: nat): (p: seq<real>)
    ensures |p| == |counts|
  {
    seq(|counts|, i requires 0 <= i < |counts| => Percentage(counts[i], total))
  }

  function BucketOf(counts: seq<nat>): BucketResult {
    var total := Sum(counts);
    BucketResult(Shares(counts, total), total)
  }

  /** The buckets that clear the threshold, or `None` when none does. */
  function Disclose(m: map<string, seq<nat>>): (r: Option<map<string, BucketResult>>)
    ensures forall k :: (r.Some? && k in r.value) <==> (k in m && Sum(m[k]) >= MIN_SAMPLE_SIZE)
    ensures forall k :: r.Some? && k in r.value ==> r.value[k] == BucketOf(m[k])
    ensures r.Some? ==> r.value != map[]
  {
    var shown := map k | k in m && Sum(m[k]) >= MIN_SAMPLE_SIZE :: BucketOf(m[k]);
    if shown == map[] then
      assert forall k :: k in m && Sum(m[k]) >= MIN_SAMPLE_SIZE ==> k in shown;
      None
    else Some(shown)
  }

  /**
    `formatResults`: the total passes through, option `i` is reported at position `i`
    with its count and its share of the total, and a demographic bucket is reported,
    with its own count and shares relative to that count, exactly when its count is
    at least `MIN_SAMPLE_SIZE`.
  */
  function FormatResults(c: VoteCounts): (r: Formatted)
    ensures r.total == c.total
    ensures |r.options| == |c.options|
    ensures forall i :: 0 <= i < |c.options| ==>
      r.options[i] == OptionResult(i, c.options[i], Percentage(c.options[i], c.total))
    ensures forall g :: (r.byGender.Some? && g in r.byGender.value) <==>
      (g in c.byGender && Sum(c.byGender[g]) >= MIN_SAMPLE_SIZE)
    ensures forall a :: (r.byAgeGroup.Some? && a in r.byAgeGroup.value) <==>
      (a in c.byAgeGroup && Sum(c.byAgeGroup[a]) >= MIN_SAMPLE_SIZE)
    ensures forall g :: r.byGender.Some? && g in r.byGender.value ==>
      r.byGender.value[g].count == Sum(c.byGender[g])
      && r.byGender.value[g].options == Shares(c.byGender[g], Sum(c.byGender[g]))
    ensures forall a :: r.byAgeGroup.Some? && a in r.byAgeGroup.value ==>
      r.byAgeGroup.value[a].count == Sum(c.byAgeGroup[a])
      && r.byAgeGroup.value[a].options == Shares(c.byAgeGroup[a], Sum(c.byAgeGroup[a]))
  {
    var options := seq(|c.options|, i requires 0 <= i < |c.options| =>
      OptionResult(i, c.options[i], Percentage(c.options[i], c.total)));
    Formatted(c.total, options, Disclose(c.byGender), Disclose(c.byAgeGroup))
  }

  function SumReal(s: seq<real>): real {
    if |s| == 0 then 0.0 else s[0] + SumReal(s[1..])
  }

  /** The shares of a list of counts add up to their sum's share of the total. */
  lemma {:induction false} SharesSum(counts: seq<nat>, total: nat)
    requires total > 0
    ensures SumReal(Shares(counts, total)) == (Sum(counts) as real / total as real) * 100.0
  {
    if |counts| > 0 {
      assert Shares(counts, total)[1..] == Shares(counts[1..], total);
      SharesSum(counts[1..], total);
      var t := total as real;
      var a := counts[0] as real;
      var b := Sum(counts[1..]) as real;
      assert (a / t) * 100.0 + (b / t) * 100.0 == ((a + b) / t) * 100.0;
    }
  }

  /** A count's share of itself is 100 percent. */
  lemma WholeShare(n: nat)
    requires n > 0
    ensures (n as real / n as real) * 100.0 == 100.0
  {
    var t := n as real;
    assert t > 0.0;
    assert t / t == 1.0;
  }

  /** On a consistent entry with votes, the overall percentages add up to exactly 100. */
  lemma PercentagesSumTo100(c: VoteCounts)
    requires Consistent(c)
    requires c.total > 0
    ensures SumReal(Shares(c.options, c.total)) == 100.0
  {
    SharesSum(c.options, c.total);
    WholeShare(c.total);
  }

  /** A bucket with votes reports percentages that add up to 100. */
  lemma BucketSharesSumTo100(counts: seq<nat>)
    requires Sum(counts) > 0
    ensures SumReal(BucketOf(counts).options) == 100.0
  {
    SharesSum(counts, Sum(counts));
    WholeShare(Sum(counts));
  }

  /** Every disclosed bucket holds at least five votes and its percentages add up to 100. */
  lemma DisclosedBucketsAreLargeEnough(m: map<string, seq<nat>>, k: string)
    requires Disclose(m).Some? && k in Disclose(m).value
    ensures Disclose(m).value[k].count >= MIN_SAMPLE_SIZE
    ensures SumReal(Disclose(m).value[k].options) == 100.0
  {
    assert Disclose(m).value[k] == BucketOf(m[k]);
    BucketSharesSumTo100(m[k]);
  }

  /** Counts [3, 1] are shown as 75% and 25%. */
  lemma ThreeToOne()
    ensures var r := FormatResults(VoteCounts(4, [3, 1], map[], map[]));
      r.options == [OptionResult(0, 3, 75.0), OptionResult(1, 1, 25.0)]
      && r.byGender.None? && r.byAgeGroup.None?
  {
    var r := FormatResults(VoteCounts(4, [3, 1], map[], map[]));
    assert r.options[0] == OptionResult(0, 3, 75.0);
    assert r.options[1] == OptionResult(1, 1, 25.0);
  }

  /** A gender bucket with four votes is withheld; with five it is shown. */
  lemma KAnonymityThreshold()
    ensures FormatResults(VoteCounts(4, [4, 0], map["female" := [4, 0]], map[])).byGender.None?
    ensures FormatResults(VoteCounts(5, [5, 0], map["female" := [5, 0]], map[])).byGender.Some?
  {
    assert Sum([4, 0]) == 4 by { assert [4, 0][1..] == [0]; }
    assert Sum([5, 0]) == 5 by { assert [5, 0][1..] == [0]; }
    var c := VoteCounts(5, [5, 0], map["female" := [5, 0]], map[]);
    assert "female" in c.byGender && Sum(c.byGender["female"]) >= MIN_SAMPLE_SIZE;
  }
}

=== FILE: pagination.dfy ===
/**
  The cursor pagination shared by the listing handlers
  (workers/src/routes/polls.ts, users.ts, comments.ts): the page size comes from the
  `limit` query parameter, the query fetches `limit + 1` rows older than the cursor,
  and the extra row only signals that a next page exists.
  The query parameter is given already converted by `Number(...)`: `None` stands for
  an absent or non-numeric value (`NaN`). Rows arrive in the order of the query's
  `ORDER BY`; `key` gives a row's `created_at`.
*/
module Pagination {
  import opened Wrappers
  import opened Schema

  const DEFAULT_LIMIT: nat := 20
  const MAX_LIMIT: nat := 50

  /** `Math.min(Number(q) || 20, 50)`, exactly as the handlers compute it. */
  function ListLimit(q: Option<int>): (limit: int)
    ensures limit <= MAX_LIMIT
    ensures (q.None? || q.value == 0) ==> limit == DEFAULT_LIMIT
    ensures q.Some? && q.value != 0 ==> limit == if q.value < MAX_LIMIT then q.value else MAX_LIMIT as int
    ensures limit < 0 <==> q.Some? && q.value < 0
  {
    var n := if q.None? || q.value == 0 then DEFAULT_LIMIT as int else q.value;
    if n < MAX_LIMIT then n else MAX_LIMIT
  }

  /** The page size the handlers evidently intend: a non-positive request falls back to the default. */
  function PageLimit(q: Option<int>): (limit: nat)
    ensures 1 <= limit <= MAX_LIMIT
    ensures q.Some? && 1 <= q.value <= MAX_LIMIT ==> limit == q.value
    ensures q.Some? && q.value > MAX_LIMIT ==> limit == MAX_LIMIT
    ensures q.None? || q.value <= 0 ==> limit == DEFAULT_LIMIT
  {
    if q.None? || q.value <= 0 then DEFAULT_LIMIT
    else if q.value < MAX_LIMIT then q.value else MAX_LIMIT
  }

  /** The two limits agree on every request that is absent, non-numeric or not negative. */
  lemma LimitsAgree(q: Option<int>)
    requires q.None? || q.value >= 0
    ensures ListLimit(q) == PageLimit(q) as int
  {
  }

  /** SQLite's `LIMIT n`: the first `n` rows, and every row when `n` is negative. */
  function SqlLimit<T>(rows: seq<T>, n: int): (r: seq<T>)
    ensures n >= 0 ==> r == rows[..if n < |rows| then n else |rows|]
    ensures n < 0 ==> r == rows
  {
    if n < 0 then rows else if n < |rows| then rows[..n] else rows
  }

  /** JavaScript's `rows.slice(0, end)`: a negative `end` counts from the back. */
  function SliceTo<T>(rows: seq<T>, end: int): (r: seq<T>)
    ensures 0 <= end ==> r == rows[..if end < |rows| then end else |rows|]
    ensures end < 0 ==> |r| == if |rows| + end < 0 then 0 else |rows| + end
  {
    var e := if end < 0 then (if |rows| + end < 0 then 0 else |rows| + end)
             else if end < |rows| then end else |rows|;
    rows[..e]
  }

  /** One page: at most `limit` items and the cursor of the next page, if there is one. */
  datatype Page<T> = Page(items: seq<T>, nextCursor: Option<int>)

  /**
    The page computation as the handlers write it, for any `limit` the query string
    produces. When `hasNext` holds but no item was kept, reading `created_at` of
    `items[items.length - 1]` throws, which the worker answers with a server error.
  */
  function PageAsWritten<T>(rows: seq<T>, limit: int, key: T -> int): (r: Result<Page<T>, ErrorCode>)
    ensures limit >= 1 ==> r == Success(Paginate(rows, limit, key))
    ensures r.Failure? <==> (limit == 0 && |rows| > 0) || limit == -1 || (limit <= -2 && |rows| <= -limit)
    ensures r.Failure? ==> r.error == InternalError
    ensures limit <= -2 && |rows| > -limit ==>
      r == Success(Page(rows[..|rows| + limit], Some(key(rows[|rows| + limit - 1]))))
  {
    var fetched := SqlLimit(rows, limit + 1);
    var hasNext := |fetched| > limit;
    var items := if hasNext then SliceTo(fetched, limit) else fetched;
    if !hasNext then Success(Page(items, None))
    else if |items| == 0 then Failure(InternalError)
    else Success(Page(items, Some(key(items[|items| - 1]))))
  }

  /**
    The page computation with a page size of at least one: the items are the first
    `limit` rows, and a next-page cursor, the `created_at` of the last item, exists
    exactly when more rows follow.
  */
  function Paginate<T>(rows: seq<T>, limit: nat, key: T -> int): (p: Page<T>)
    requires limit >= 1
    ensures p.items == rows[..if limit < |rows| then limit else |rows|]
    ensures p.nextCursor.Some? <==> |rows| > limit
    ensures p.nextCursor.Some? ==> p.nextCursor.value == key(rows[limit - 1])
  {
    var fetched := SqlLimit(rows, limit + 1);
    var hasNext := |fetched| > limit;
    var items := if hasNext then fetched[..limit] else fetched;
    Page(items, if hasNext then Some(key(items[|items| - 1])) else None)
  }

  /**
    When the `limit` parameter is absent, non-numeric or not negative, the as-written
    code computes the same page as `Paginate` with the corrected page size.
  */
  lemma PageAsWrittenAgrees<T>(rows: seq<T>, q: Option<int>, key: T -> int)
    requires q.None? || q.value >= 0
    ensures PageAsWritten(rows, ListLimit(q), key) == Success(Paginate(rows, PageLimit(q), key))
  {
    LimitsAgree(q);
  }

  /** `?limit=-1` makes every listing fail: `LIMIT 0` fetches nothing, yet `0 > -1` claims a next page. */
  lemma NegativeLimitFails<T>(rows: seq<T>, key: T -> int)
    ensures ListLimit(Some(-1)) == -1
    ensures PageAsWritten(rows, ListLimit(Some(-1)), key) == Failure(InternalError)
  {
  }

  /**
    `?limit=-5` over ten rows is answered with success, but the page holds only the first
    five rows, where the corrected page size of 20 gives all ten. In general a limit of
    `-k` with `k >= 2` returns every row but the last `k`, however many there are
    (`PageAsWritten`'s contract), so it also lifts the 50-row cap.
  */
  lemma NegativeLimitWrongPage(key: int -> int)
    ensures var rows := [10, 9, 8, 7, 6, 5, 4, 3, 2, 1];
      && PageAsWritten(rows, ListLimit(Some(-5)), key) == Success(Page([10, 9, 8, 7, 6], Some(key(6))))
      && Paginate(rows, PageLimit(Some(-5)), key) == Page(rows, None)
  {
    var rows := [10, 9, 8, 7, 6, 5, 4, 3, 2, 1];
    assert rows[..5] == [10, 9, 8, 7, 6];
  }

  /** `a` keeps some of the rows of `b`, in `b`'s order. */
  ghost predicate Subsequence<T>(a: seq<T>, b: seq<T>)
    decreases |b|
  {
    |a| == 0 || (|b| > 0 && ((a[0] == b[0] && Subsequence(a[1..], b[1..])) || Subsequence(a, b[1..])))
  }

  /** A `WHERE` condition applied to rows in query order: exactly the rows that satisfy `keep`. */
  function Filter<T(!new)>(rows: seq<T>, keep: T -> bool): (r: seq<T>)
    ensures forall x :: x in r <==> x in rows && keep(x)
    ensures |r| <= |rows|
  {
    if |rows| == 0 then []
    else (if keep(rows[0]) then [rows[0]] else []) + Filter(rows[1..], keep)
  }

  /** `Filter` keeps every satisfying row as often as it occurs, in the original order. */
  lemma {:induction false} FilterKeepsOrder<T(!new)>(rows: seq<T>, keep: T -> bool)
    ensures Subsequence(Filter(rows, keep), rows)
    ensures forall x :: multiset(Filter(rows, keep))[x] == if keep(x) then multiset(rows)[x] else 0
    decreases |rows|
  {
    if |rows| > 0 {
      FilterKeepsOrder(rows[1..], keep);
      var rest := Filter(rows[1..], keep);
      assert rows == [rows[0]] + rows[1..];
      assert multiset(rows) == multiset([rows[0]]) + multiset(rows[1..]);
      if keep(rows[0]) {
        assert Filter(rows, keep) == [rows[0]] + rest;
        assert ([rows[0]] + rest)[1..] == rest;
      } else {
        assert Filter(rows, keep) == rest;
      }
    }
  }

  lemma {:induction false} FilterKeepsAll<T(!new)>(rows: seq<T>, keep: T -> bool)
    requires forall i :: 0 <= i < |rows| ==> keep(rows[i])
    ensures Filter(rows, keep) == rows
    decreases |rows|
  {
    if |rows| > 0 {
      FilterKeepsAll(rows[1..], keep);
      assert [rows[0]] + rows[1..] == rows;
    }
  }

  lemma {:induction false} FilterDropsAll<T(!new)>(rows: seq<T>, keep: T -> bool)
    requires forall i :: 0 <= i < |rows| ==> !keep(rows[i])
    ensures Filter(rows, keep) == []
    decreases |rows|
  {
    if |rows| > 0 {
      FilterDropsAll(rows[1..], keep);
    }
  }

  /** Filtering a concatenation filters each part. */
  lemma {:induction false} FilterAppend<T(!new)>(a: seq<T>, b: seq<T>, keep: T -> bool)
    ensures Filter(a + b, keep) == Filter(a, keep) + Filter(b, keep)
    decreases |a|
  {
    if |a| > 0 {
      var ab := a + b;
      assert ab[0] == a[0] && ab[1..] == a[1..] + b;
      FilterAppend(a[1..], b, keep);
      var head := if keep(a[0]) then [a[0]] else [];
      calc {
        Filter(ab, keep);
        head + Filter(ab[1..], keep);
        head + (Filter(a[1..], keep) + Filter(b, keep));
        (head + Filter(a[1..], keep)) + Filter(b, keep);
      }
    } else {
      assert a + b == b;
    }
  }

  /** The query's `created_at < ?` condition for a given cursor value. */
  function Before<T>(key: T -> int, c: int): T -> bool {
    x => key(x) < c
  }

  /** The rows strictly older than the cursor, in query order; without a cursor, every row. */
  function OlderThan<T(!new)>(rows: seq<T>, cursor: Option<int>, key: T -> int): (r: seq<T>)
    ensures cursor.Some? ==> forall x :: x in r <==> x in rows && key(x) < cursor.value
    ensures cursor.None? ==> r == rows
  {
    if cursor.None? then rows
    else Filter(rows, Before(key, cursor.value))
  }

  /** Newest first, with no two rows sharing a `created_at`. */
  ghost predicate StrictlyNewestFirst<T>(rows: seq<T>, key: T -> int) {
    forall i, j :: 0 <= i < j < |rows| ==> key(rows[i]) > key(rows[j])
  }

  /** Filtering a list is filtering its two halves around any split point. */
  lemma FilterOfSplit<T(!new)>(rows: seq<T>, n: nat, keep: T -> bool)
    requires n <= |rows|
    ensures Filter(rows, keep) == Filter(rows[..n], keep) + Filter(rows[n..], keep)
  {
    assert rows == rows[..n] + rows[n..];
    FilterAppend(rows[..n], rows[n..], keep);
  }

  /** In a newest-first list, no row up to and including position `k` is older than `key(rows[k])`. */
  lemma NewerRowsDropped<T(!new)>(rows: seq<T>, k: nat, key: T -> int)
    requires k < |rows|
    requires StrictlyNewestFirst(rows, key)
    ensures Filter(rows[..k + 1], Before(key, key(rows[k]))) == []
  {
    var newer := rows[..k + 1];
    forall i | 0 <= i < |newer|
      ensures !Before(key, key(rows[k]))(newer[i])
    {
      assert newer[i] == rows[i];
    }
    FilterDropsAll(newer, Before(key, key(rows[k])));
  }

  /** In a newest-first list, every row after position `k` is older than `key(rows[k])`. */
  lemma OlderRowsKept<T(!new)>(rows: seq<T>, k: nat, key: T -> int)
    requires k < |rows|
    requires StrictlyNewestFirst(rows, key)
    ensures Filter(rows[k + 1..], Before(key, key(rows[k]))) == rows[k + 1..]
  {
    var older := rows[k + 1..];
    forall i | 0 <= i < |older|
      ensures Before(key, key(rows[k]))(older[i])
    {
      assert older[i] == rows[k + 1 + i];
    }
    FilterKeepsAll(older, Before(key, key(rows[k])));
  }

  /** In a newest-first list, the rows older than `key(rows[k])` are exactly those after position `k`. */
  lemma OlderThanSuffix<T(!new)>(rows: seq<T>, k: nat, key: T -> int)
    requires k < |rows|
    requires StrictlyNewestFirst(rows, key)
    ensures OlderThan(rows, Some(key(rows[k])), key) == rows[k + 1..]
  {
    NewerRowsDropped(rows, k, key);
    OlderRowsKept(rows, k, key);
    FilterOfSplit(rows, k + 1, Before(key, key(rows[k])));
  }

  /**
    Following the returned cursor continues exactly where the page ended: in a
    newest-first list without ties, the next request sees the remaining rows.
  */
  lemma NextPageContinues<T(!new)>(rows: seq<T>, limit: nat, key: T -> int)
    requires limit >= 1
    requires StrictlyNewestFirst(rows, key)
    requires Paginate(rows, limit, key).nextCursor.Some?
    ensures OlderThan(rows, Paginate(rows, limit, key).nextCursor, key) == rows[limit..]
  {
    OlderThanSuffix(rows, limit - 1, key);
  }

  /**
    With two rows created in the same second and a page size of one, the cursor of the
    first page excludes the second row: the strict `created_at < ?` filter skips rows
    tied with the last item of a page.
  */
  lemma TiedRowsSkipped()
    ensures var key := (t: int) => t;
      var page := Paginate([7, 7], 1, key);
      page.items == [7] && page.nextCursor == Some(7) && OlderThan([7, 7], page.nextCursor, key) == []
  {
    var key := (t: int) => t;
    assert !Before(key, 7)(7);
    FilterDropsAll([7, 7], Before(key, 7));
  }
}

=== FILE: polls.dfy ===
/**
  The poll handlers of the worker (workers/src/routes/polls.ts): poll creation, the
  poll detail with its results, the poll list, and the vote acceptor.
  The database and the cache are one explicit `Store` value; a handler returns the new
  store and its response, or an error code and no store at all, so an error never
  changes anything. Identifiers and timestamps the database generates, the
  authenticated user and the clock reading are parameters. Requests are handled one
  after the other: the gaps between the duplicate check and the insert, and between
  the cache read and write, are not modelled.
*/
module Polls {
  import opened Wrappers
  import opened JsString
  import opened Schema
  import opened Kv
  import Pagination

  /** The durable tables and the cache the poll handlers touch. */
  datatype Store = Store(
    polls: map<string, Poll>,
    responses: seq<Response>,
    counts: map<string, VoteCounts>,
    profiles: map<string, Profile>)

  // ------------------------------------------------------------------ the log

  /** The votes of one poll, in the order they were accepted. */
  function LogOf(rs: seq<Response>, pollId: string): (log: seq<Response>)
    ensures |log| <= |rs|
    ensures forall i :: 0 <= i < |log| ==> log[i].pollId == pollId
  {
    if |rs| == 0 then []
    else LogOf(rs[..|rs| - 1], pollId) + (if rs[|rs| - 1].pollId == pollId then [rs[|rs| - 1]] else [])
  }

  /** `SELECT 1 FROM responses WHERE poll_id = ? AND fingerprint = ?` finds a row. */
  predicate HasVoted(rs: seq<Response>, pollId: string, fingerprint: string) {
    exists i | 0 <= i < |rs| :: rs[i].pollId == pollId && rs[i].fingerprint == fingerprint
  }

  predicate IndicesIn(rows: seq<Response>, n: nat) {
    forall i :: 0 <= i < |rows| ==> 0 <= rows[i].optionIndex < n
  }

  /** The counter entry obtained by feeding a poll's log, oldest first, to `incrementVoteCount`. */
  function Replay(rows: seq<Response>, n: nat): (c: VoteCounts)
    requires IndicesIn(rows, n)
    ensures Shaped(c, n)
  {
    if |rows| == 0 then InitCounts(n)
    else
      var last := rows[|rows| - 1];
      IncrementVoteCount(Some(Replay(rows[..|rows| - 1], n)), last.optionIndex, n, last.gender, last.ageGroup)
  }

  /** How many rows chose option `j`. */
  function Chose(rows: seq<Response>, j: int): nat {
    if |rows| == 0 then 0
    else Chose(rows[..|rows| - 1], j) + (if rows[|rows| - 1].optionIndex == j then 1 else 0)
  }

  /**
    The replayed entry counts every row once: its total is the number of rows, each
    option's count is the number of rows that chose it, and the entry is consistent.
  */
  lemma {:induction false} ReplayCounts(rows: seq<Response>, n: nat)
    requires IndicesIn(rows, n)
    ensures Replay(rows, n).total == |rows|
    ensures forall j :: 0 <= j < n ==> Replay(rows, n).options[j] == Chose(rows, j)
    ensures Consistent(Replay(rows, n))
  {
    if |rows| > 0 {
      var prefix := rows[..|rows| - 1];
      var last := rows[|rows| - 1];
      ReplayCounts(prefix, n);
      IncrementPreservesConsistency(Some(Replay(prefix, n)), last.optionIndex, n, last.gender, last.ageGroup);
    }
  }

  // ------------------------------------------------------------- the invariant

  /** At most one vote per (poll, fingerprint): the central invariant of the log. */
  ghost predicate NoDuplicateVotes(rs: seq<Response>) {
    forall i, j :: 0 <= i < j < |rs| ==>
      !(rs[i].pollId == rs[j].pollId && rs[i].fingerprint == rs[j].fingerprint)
  }

  /** Every vote names an existing poll and one of its options. */
  ghost predicate LogWellFormed(st: Store) {
    forall i :: 0 <= i < |st.responses| ==>
      st.responses[i].pollId in st.polls
      && 0 <= st.responses[i].optionIndex < |st.polls[st.responses[i].pollId].options|
  }

  lemma {:induction false} LogOfIndicesIn(rs: seq<Response>, p: string, n: nat)
    requires forall i :: 0 <= i < |rs| && rs[i].pollId == p ==> 0 <= rs[i].optionIndex < n
    ensures IndicesIn(LogOf(rs, p), n)
  {
    if |rs| > 0 {
      LogOfIndicesIn(rs[..|rs| - 1], p, n);
    }
  }

  lemma LogOfIndices(st: Store, p: string)
    requires LogWellFormed(st) && p in st.polls
    ensures IndicesIn(LogOf(st.responses, p), |st.polls[p].options|)
  {
    LogOfIndicesIn(st.responses, p, |st.polls[p].options|);
  }

  /** The cache entry of a poll is the replay of its log; a poll without an entry has no votes. */
  ghost predicate CacheMatchesLog(st: Store)
    requires LogWellFormed(st)
  {
    forall p :: p in st.polls ==> CacheAgrees(st, p)
  }

  ghost predicate CacheAgrees(st: Store, p: string)
    requires p in st.polls
  {
    && IndicesIn(LogOf(st.responses, p), |st.polls[p].options|)
    && if p in st.counts then st.counts[p] == Replay(LogOf(st.responses, p), |st.polls[p].options|)
       else LogOf(st.responses, p) == []
  }

  ghost predicate Valid(st: Store) {
    && LogWellFormed(st)
    && NoDuplicateVotes(st.responses)
    && CacheMatchesLog(st)
  }

  /** Every cache entry of an existing poll has one slot per option: what `incrementVoteCount` needs. */
  ghost predicate CountsShaped(st: Store) {
    forall p :: p in st.polls && p in st.counts ==> Shaped(st.counts[p], |st.polls[p].options|)
  }

  lemma ValidIsShaped(st: Store)
    requires Valid(st)
    ensures CountsShaped(st)
  {
    forall p | p in st.polls && p in st.counts
      ensures Shaped(st.counts[p], |st.polls[p].options|)
    {
      LogOfIndices(st, p);
    }
  }

  /**
    Count conservation: in a valid store a poll's cached total and the sum of its option
    counts both equal the number of votes in its log, and option `j` holds the number of
    votes for `j`.
  */
  lemma CacheCountsVotes(st: Store, p: string)
    requires Valid(st)
    requires p in st.polls && p in st.counts
    ensures st.counts[p].total == |LogOf(st.responses, p)|
    ensures Sum(st.counts[p].options) == |LogOf(st.responses, p)|
    ensures forall j :: 0 <= j < |st.polls[p].options| ==> st.counts[p].options[j] == Chose(LogOf(st.responses, p), j)
  {
    LogOfIndices(st, p);
    ReplayCounts(LogOf(st.responses, p), |st.polls[p].options|);
  }

  // ------------------------------------------------------------------- voting

  /** The JSON body of a vote: `optionIndex` is `None` unless it is a number, taken here as an integer. */
  datatype VoteBody = VoteBody(optionIndex: Option<int>, fingerprint: Option<string>)

  /** The demographic snapshot attached to a vote. */
  datatype Snapshot = Snapshot(gender: Option<string>, ageGroup: Option<string>, region: Option<string>)

  /**
    The attributes a voter lets a vote carry: each one is the profile's value when its
    share flag is set and null otherwise; an anonymous voter or one without a profile
    shares nothing.
  */
  function SharedDemographics(profiles: map<string, Profile>, userId: Option<string>): (s: Snapshot)
    ensures !Truthy(userId) || userId.value !in profiles ==> s == Snapshot(None, None, None)
    ensures s.gender.Some? ==>
      Truthy(userId) && userId.value in profiles
      && profiles[userId.value].shareGender && s.gender == profiles[userId.value].gender
    ensures s.ageGroup.Some? ==>
      Truthy(userId) && userId.value in profiles
      && profiles[userId.value].shareAgeGroup && s.ageGroup == profiles[userId.value].ageGroup
    ensures s.region.Some? ==>
      Truthy(userId) && userId.value in profiles
      && profiles[userId.value].shareRegion && s.region == profiles[userId.value].region
    ensures Truthy(userId) && userId.value in profiles ==>
      var p := profiles[userId.value];
      && (p.shareGender ==> s.gender == p.gender)
      && (p.shareAgeGroup ==> s.ageGroup == p.ageGroup)
      && (p.shareRegion ==> s.region == p.region)
  {
    if Truthy(userId) && userId.value in profiles then
      var p := profiles[userId.value];
      Snapshot(
        if p.shareGender then p.gender else None,
        if p.shareAgeGroup then p.ageGroup else None,
        if p.shareRegion then p.region else None)
    else Snapshot(None, None, None)
  }

  /** `expires_at` is set and earlier than the request time. */
  predicate Expired(poll: Poll, now: int) {
    poll.expiresAt.Some? && poll.expiresAt.value < now
  }

  /** The body has a numeric option index and a non-empty fingerprint. */
  predicate WellFormedBody(body: VoteBody) {
    body.optionIndex.Some? && Truthy(body.fingerprint)
  }

  /** The poll exists and is active. */
  predicate OpenPoll(st: Store, pollId: string) {
    pollId in st.polls && st.polls[pollId].isActive
  }

  /** The option index names one of the poll's options. */
  predicate InRange(st: Store, pollId: string, body: VoteBody)
    requires WellFormedBody(body) && OpenPoll(st, pollId)
  {
    0 <= body.optionIndex.value < |st.polls[pollId].options|
  }

  /** Every check of the vote handler passes. */
  predicate Accepts(st: Store, pollId: string, body: VoteBody, now: int) {
    && WellFormedBody(body)
    && OpenPoll(st, pollId)
    && 0 <= body.optionIndex.value < |st.polls[pollId].options|
    && !Expired(st.polls[pollId], now)
    && !HasVoted(st.responses, pollId, body.fingerprint.value)
  }

  /** A successful vote: the new store and the freshly formatted results. */
  datatype VoteAccepted = VoteAccepted(store: Store, results: Formatted)

  /** The response row a vote that passed every check appends. */
  function VoteRow(st: Store, pollId: string, body: VoteBody, userId: Option<string>): Response
    requires WellFormedBody(body)
  {
    var s := SharedDemographics(st.profiles, userId);
    Response(pollId, body.optionIndex.value, if Truthy(userId) then userId else None,
             body.fingerprint.value, s.gender, s.ageGroup, s.region)
  }

  function CachedEntry(st: Store, pollId: string): Option<VoteCounts> {
    if pollId in st.counts then Some(st.counts[pollId]) else None
  }

  /**
    POST `/:id/vote`. The checks run in the handler's order and the first one that
    fails decides the error: the body's shape, the poll being open, the index range,
    the expiry, the duplicate (poll, fingerprint). Only a vote that passes them all
    changes the store: its row, carrying the consented snapshot, is appended to the
    log; only that poll's counter entry changes, by one vote whose gender and age
    group (never the region) come from the row; and the response is that entry
    formatted.
  */
  function SubmitVote(st: Store, pollId: string, body: VoteBody, userId: Option<string>, now: int)
    : (r: Result<VoteAccepted, ErrorCode>)
    requires CountsShaped(st)
    ensures r.Success? <==> Accepts(st, pollId, body, now)
    ensures r.Success? ==> CountsShaped(r.value.store)
    ensures !WellFormedBody(body) ==> r == Failure(InvalidInput)
    ensures WellFormedBody(body) && !OpenPoll(st, pollId) ==> r == Failure(PollNotFound)
    ensures WellFormedBody(body) && OpenPoll(st, pollId) && !InRange(st, pollId, body) ==>
      r == Failure(InvalidInput)
    ensures WellFormedBody(body) && OpenPoll(st, pollId) && InRange(st, pollId, body)
            && Expired(st.polls[pollId], now) ==>
      r == Failure(PollExpired)
    ensures WellFormedBody(body) && OpenPoll(st, pollId) && InRange(st, pollId, body)
            && !Expired(st.polls[pollId], now) && HasVoted(st.responses, pollId, body.fingerprint.value) ==>
      r == Failure(DuplicateVote)
    ensures r.Success? ==>
      var row := VoteRow(st, pollId, body, userId);
      var st' := r.value.store;
      && st'.polls == st.polls
      && st'.profiles == st.profiles
      && st'.responses == st.responses + [row]
      && st'.counts.Keys == st.counts.Keys + {pollId}
      && (forall p :: p in st.counts && p != pollId ==> st'.counts[p] == st.counts[p])
      && st'.counts[pollId] == IncrementVoteCount(CachedEntry(st, pollId), row.optionIndex,
                                                  |st.polls[pollId].options|, row.gender, row.ageGroup)
      && r.value.results == FormatResults(st'.counts[pollId])
  {
    if !WellFormedBody(body) then Failure(InvalidInput)
    else if !OpenPoll(st, pollId) then Failure(PollNotFound)
    else
      var poll := st.polls[pollId];
      var idx := body.optionIndex.value;
      if idx < 0 || idx >= |poll.options| then Failure(InvalidInput)
      else if Expired(poll, now) then Failure(PollExpired)
      else if HasVoted(st.responses, pollId, body.fingerprint.value) then Failure(DuplicateVote)
      else
        var row := VoteRow(st, pollId, body, userId);
        var counts := IncrementVoteCount(CachedEntry(st, pollId), idx, |poll.options|, row.gender, row.ageGroup);
        var st' := st.(responses := st.responses + [row], counts := st.counts[pollId := counts]);
        Success(VoteAccepted(st', FormatResults(counts)))
  }

  lemma LogOfAppend(rs: seq<Response>, row: Response, p: string)
    ensures LogOf(rs + [row], p) == LogOf(rs, p) + (if row.pollId == p then [row] else [])
  {
    assert (rs + [row])[..|rs|] == rs;
  }

  /** The duplicate check finds a row exactly when the poll's log holds a vote with that fingerprint. */
  lemma {:induction false} HasVotedIffLogged(rs: seq<Response>, pollId: string, fingerprint: string)
    ensures HasVoted(rs, pollId, fingerprint)
        <==> exists k | 0 <= k < |LogOf(rs, pollId)| :: LogOf(rs, pollId)[k].fingerprint == fingerprint
    decreases |rs|
  {
    if |rs| > 0 {
      var init, last := rs[..|rs| - 1], rs[|rs| - 1];
      HasVotedIffLogged(init, pollId, fingerprint);
      assert rs == init + [last];
      LogOfAppend(init, last, pollId);
      var log, tail := LogOf(init, pollId), if last.pollId == pollId then [last] else [];
      assert LogOf(rs, pollId) == log + tail;
      if HasVoted(rs, pollId, fingerprint) {
        var i :| 0 <= i < |rs| && rs[i].pollId == pollId && rs[i].fingerprint == fingerprint;
        if i < |rs| - 1 {
          assert init[i] == rs[i];
          var k :| 0 <= k < |log| && log[k].fingerprint == fingerprint;
          assert (log + tail)[k] == log[k];
        } else {
          assert (log + tail)[|log|] == last;
        }
      }
      if exists k | 0 <= k < |log + tail| :: (log + tail)[k].fingerprint == fingerprint {
        var k :| 0 <= k < |log + tail| && (log + tail)[k].fingerprint == fingerprint;
        if k < |log| {
          assert log[k].fingerprint == fingerprint;
          var i :| 0 <= i < |init| && init[i].pollId == pollId && init[i].fingerprint == fingerprint;
          assert rs[i] == init[i];
        } else {
          assert rs[|rs| - 1] == last;
        }
      }
    }
  }

  lemma {:induction false} LogOfEmpty(rs: seq<Response>, p: string)
    requires LogOf(rs, p) == []
    ensures !exists i | 0 <= i < |rs| :: rs[i].pollId == p
  {
    if |rs| > 0 {
      LogOfEmpty(rs[..|rs| - 1], p);
      assert forall i | 0 <= i < |rs| - 1 :: rs[..|rs| - 1][i] == rs[i];
    }
  }

  lemma AppendKeepsNoDuplicates(rs: seq<Response>, row: Response)
    requires NoDuplicateVotes(rs)
    requires !HasVoted(rs, row.pollId, row.fingerprint)
    ensures NoDuplicateVotes(rs + [row])
  {
    var rs' := rs + [row];
    forall i, j | 0 <= i < j < |rs'|
      ensures !(rs'[i].pollId == rs'[j].pollId && rs'[i].fingerprint == rs'[j].fingerprint)
    {
      if j == |rs| {
        assert rs'[i] == rs[i];
      } else {
        assert rs'[i] == rs[i] && rs'[j] == rs[j];
      }
    }
  }

  /** The precondition shared by the lemmas about appending one accepted vote. */
  ghost predicate FreshVote(st: Store, row: Response, c: VoteCounts) {
    && Valid(st)
    && CountsShaped(st)
    && row.pollId in st.polls
    && 0 <= row.optionIndex < |st.polls[row.pollId].options|
    && !HasVoted(st.responses, row.pollId, row.fingerprint)
    && c == IncrementVoteCount(CachedEntry(st, row.pollId), row.optionIndex,
                               |st.polls[row.pollId].options|, row.gender, row.ageGroup)
  }

  function WithVote(st: Store, row: Response, c: VoteCounts): Store {
    st.(responses := st.responses + [row], counts := st.counts[row.pollId := c])
  }

  lemma AppendKeepsLogWellFormed(st: Store, row: Response, c: VoteCounts)
    requires FreshVote(st, row, c)
    ensures LogWellFormed(WithVote(st, row, c))
  {
    var st' := WithVote(st, row, c);
    forall i | 0 <= i < |st'.responses|
      ensures st'.responses[i].pollId in st'.polls
      ensures 0 <= st'.responses[i].optionIndex < |st'.polls[st'.responses[i].pollId].options|
    {
      if i < |st.responses| {
        assert st'.responses[i] == st.responses[i];
      }
    }
  }

  lemma ReplayAppend(log: seq<Response>, row: Response, n: nat)
    requires IndicesIn(log + [row], n)
    ensures IndicesIn(log, n)
    ensures Replay(log + [row], n)
         == IncrementVoteCount(Some(Replay(log, n)), row.optionIndex, n, row.gender, row.ageGroup)
  {
    assert (log + [row])[..|log|] == log;
    assert forall i :: 0 <= i < |log| ==> log[i] == (log + [row])[i];
  }

  /** A missing cache entry counts as the zeroed entry `initCounts` gives. */
  lemma IncrementOfNothing(i: int, n: nat, gender: Option<string>, ageGroup: Option<string>)
    requires 0 <= i < n
    ensures IncrementVoteCount(None, i, n, gender, ageGroup) == IncrementVoteCount(Some(InitCounts(n)), i, n, gender, ageGroup)
  {
  }

  /** Incrementing the entry that replays a log gives the replay of the log one row longer. */
  lemma IncrementReplays(log: seq<Response>, row: Response, n: nat, entry: Option<VoteCounts>)
    requires IndicesIn(log, n)
    requires 0 <= row.optionIndex < n
    requires entry.Some? ==> entry.value == Replay(log, n)
    requires entry.None? ==> log == []
    ensures IndicesIn(log + [row], n)
    ensures IncrementVoteCount(entry, row.optionIndex, n, row.gender, row.ageGroup) == Replay(log + [row], n)
  {
    assert IndicesIn(log + [row], n) by {
      forall i | 0 <= i < |log| + 1 ensures 0 <= (log + [row])[i].optionIndex < n {
        if i < |log| {
          assert (log + [row])[i] == log[i];
        }
      }
    }
    ReplayAppend(log, row, n);
    if entry.None? {
      assert Replay(log, n) == InitCounts(n);
      IncrementOfNothing(row.optionIndex, n, row.gender, row.ageGroup);
    }
  }

  /** The entry of the voted poll is the replay of its log, one row longer. */
  lemma AppendKeepsVotedEntry(st: Store, row: Response, c: VoteCounts)
    requires FreshVote(st, row, c)
    ensures LogWellFormed(WithVote(st, row, c))
    ensures CacheAgrees(WithVote(st, row, c), row.pollId)
  {
    var st' := WithVote(st, row, c);
    var p := row.pollId;
    var n := |st.polls[p].options|;
    AppendKeepsLogWellFormed(st, row, c);
    var log := LogOf(st.responses, p);
    LogOfAppend(st.responses, row, p);
    assert CacheAgrees(st, p);
    IncrementReplays(log, row, n, CachedEntry(st, p));
    assert LogOf(st'.responses, p) == log + [row];
    assert st'.counts[p] == c;
  }

  /** Every other poll keeps its log and its entry. */
  lemma AppendKeepsOtherEntries(st: Store, row: Response, c: VoteCounts, p: string)
    requires FreshVote(st, row, c)
    requires p in st.polls && p != row.pollId
    ensures LogWellFormed(WithVote(st, row, c))
    ensures CacheAgrees(WithVote(st, row, c), p)
  {
    var st' := WithVote(st, row, c);
    AppendKeepsLogWellFormed(st, row, c);
    LogOfAppend(st.responses, row, p);
    assert LogOf(st'.responses, p) == LogOf(st.responses, p);
    assert CacheAgrees(st, p);
    assert (p in st'.counts) == (p in st.counts);
    if p in st.counts {
      assert st'.counts[p] == st.counts[p];
    }
  }

  /** Appending a fresh, in-range vote and recording it in the poll's entry keeps a store valid. */
  lemma AppendVotePreservesValid(st: Store, row: Response, c: VoteCounts)
    requires FreshVote(st, row, c)
    ensures Valid(WithVote(st, row, c))
  {
    var st' := WithVote(st, row, c);
    AppendKeepsNoDuplicates(st.responses, row);
    AppendKeepsLogWellFormed(st, row, c);
    forall p | p in st'.polls
      ensures CacheAgrees(st', p)
    {
      if p == row.pollId {
        AppendKeepsVotedEntry(st, row, c);
      } else {
        AppendKeepsOtherEntries(st, row, c, p);
      }
    }
  }

  /** An accepted vote keeps the store valid: still no duplicate, and the cache still replays the log. */
  lemma SubmitVotePreservesValid(st: Store, pollId: string, body: VoteBody, userId: Option<string>, now: int)
    requires Valid(st)
    ensures CountsShaped(st)
    ensures var r := SubmitVote(st, pollId, body, userId, now);
      r.Success? ==> Valid(r.value.store)
  {
    ValidIsShaped(st);
    var r := SubmitVote(st, pollId, body, userId, now);
    if r.Success? {
      var row := VoteRow(st, pollId, body, userId);
      var c := r.value.store.counts[pollId];
      assert r.value.store == WithVote(st, row, c);
      AppendVotePreservesValid(st, row, c);
    }
  }

  /**
    Single-vote rule: once a (poll, fingerprint) vote is accepted, every later attempt
    with that fingerprint on that poll fails, and it fails with `DUPLICATE_VOTE` as soon
    as it passes the earlier checks.
  */
  lemma SecondVoteRejected(st: Store, pollId: string, body: VoteBody, userId: Option<string>, now: int,
                           body2: VoteBody, userId2: Option<string>, now2: int)
    requires CountsShaped(st)
    requires SubmitVote(st, pollId, body, userId, now).Success?
    requires body2.fingerprint == body.fingerprint
    ensures var st' := SubmitVote(st, pollId, body, userId, now).value.store;
      var r2 := SubmitVote(st', pollId, body2, userId2, now2);
      && r2.Failure?
      && (WellFormedBody(body2) && OpenPoll(st', pollId) && InRange(st', pollId, body2)
          && !Expired(st'.polls[pollId], now2) ==>
            r2.error == DuplicateVote)
  {
    var st' := SubmitVote(st, pollId, body, userId, now).value.store;
    var last := |st'.responses| - 1;
    assert st'.responses[last].pollId == pollId && st'.responses[last].fingerprint == body.fingerprint.value;
    assert HasVoted(st'.responses, pollId, body2.fingerprint.value);
  }

  /**
    Consent is per attribute: a vote from a voter who does not share a gender leaves
    every gender bucket of the poll as it was, while the age-group buckets may change.
  */
  lemma GenderNotSharedLeavesGenderBuckets(st: Store, pollId: string, body: VoteBody, userId: Option<string>, now: int)
    requires CountsShaped(st)
    requires Truthy(userId) && userId.value in st.profiles && !st.profiles[userId.value].shareGender
    requires pollId in st.counts
    requires SubmitVote(st, pollId, body, userId, now).Success?
    ensures SubmitVote(st, pollId, body, userId, now).value.store.counts[pollId].byGender
         == st.counts[pollId].byGender
  {
  }

  // ------------------------------------------------------------ poll creation

  /** The JSON body of a new poll; `None` stands for a missing field or a non-array `options`. */
  datatype CreatePollBody = CreatePollBody(
    question: Option<string>,
    options: Option<seq<string>>,
    category: Option<string>,
    expiresAt: Option<int>)

  /** The trimmed question is 5 to 200 code units long. */
  predicate QuestionOk(question: Option<string>) {
    question.Some? && 5 <= Length(Trim(question.value)) <= 200
  }

  /** `options.map(o => o.trim()).filter(Boolean)`. */
  function NonEmptyTrimmed(options: seq<string>): (r: seq<string>)
    ensures |r| <= |options|
    ensures forall i :: 0 <= i < |r| ==> r[i] != "" && IsTrimmed(r[i])
  {
    if |options| == 0 then []
    else
      var t := Trim(options[0]);
      TrimIsMiddle(options[0]);
      (if t != "" then [t] else []) + NonEmptyTrimmed(options[1..])
  }

  /** The test `filter(Boolean)` applies to a string: it is non-empty. */
  function NonBlank(): string -> bool {
    (t: string) => t != ""
  }

  /** The server's list is exactly the trimmed options with the empty ones filtered out, in order. */
  lemma {:induction false} NonEmptyTrimmedFilters(options: seq<string>)
    ensures NonEmptyTrimmed(options) == Pagination.Filter(TrimAll(options), NonBlank())
  {
    if |options| > 0 {
      var t := TrimAll(options);
      assert t[1..] == TrimAll(options[1..]);
      NonEmptyTrimmedFilters(options[1..]);
      assert Pagination.Filter(t, NonBlank())
          == (if NonBlank()(t[0]) then [t[0]] else []) + Pagination.Filter(t[1..], NonBlank());
    }
  }

  /** Every check of the creation handler passes. */
  predicate CreateAccepts(body: CreatePollBody) {
    && QuestionOk(body.question)
    && body.options.Some?
    && 2 <= |body.options.value| <= 4
    && |NonEmptyTrimmed(body.options.value)| >= 2
  }

  /**
    POST `/`. The question must trim to 5..200 code units, there must be 2 to 4 raw
    options and at least two of them non-empty after trimming; otherwise the request
    fails with `INVALID_INPUT` and nothing changes. A created poll stores the trimmed
    question and the non-empty trimmed options, so it has 2 to 4 options; it belongs
    to the authenticated user (none when the id is missing or empty), keeps a truthy
    category and the requested expiry, is active, and was created at `now`. Its cache
    entry starts zeroed with one slot per stored option.
  */
  function CreatePoll(st: Store, body: CreatePollBody, userId: Option<string>, newId: string, now: int)
    : (r: Result<Store, ErrorCode>)
    requires newId !in st.polls
    ensures r.Success? <==> CreateAccepts(body)
    ensures r.Failure? ==> r.error == InvalidInput
    ensures r.Success? ==>
      && newId in r.value.polls
      && var poll := r.value.polls[newId];
      && r.value == st.(polls := st.polls[newId := poll], counts := st.counts[newId := InitCounts(|poll.options|)])
      && poll.id == newId
      && poll.creatorId == (if Truthy(userId) then userId else None)
      && poll.question == Trim(body.question.value)
      && poll.options == NonEmptyTrimmed(body.options.value)
      && 2 <= |poll.options| <= 4
      && poll.category == (if Truthy(body.category) then body.category else None)
      && poll.expiresAt == body.expiresAt
      && poll.isActive
      && poll.createdAt == now
  {
    if !QuestionOk(body.question) then Failure(InvalidInput)
    else if body.options.None? || |body.options.value| < 2 || |body.options.value| > 4 then Failure(InvalidInput)
    else
      var question := Trim(body.question.value);
      var options := NonEmptyTrimmed(body.options.value);
      if |options| < 2 then Failure(InvalidInput)
      else
        var poll := Poll(newId, if Truthy(userId) then userId else None, question,
                         options, if Truthy(body.category) then body.category else None,
                         body.expiresAt, true, now);
        Success(st.(polls := st.polls[newId := poll], counts := st.counts[newId := InitCounts(|options|)]))
  }

  lemma {:induction false} LogOfAbsent(rs: seq<Response>, p: string)
    requires forall i :: 0 <= i < |rs| ==> rs[i].pollId != p
    ensures LogOf(rs, p) == []
  {
    if |rs| > 0 {
      LogOfAbsent(rs[..|rs| - 1], p);
    }
  }

  /** Adding a poll with no votes and a zeroed entry keeps a store valid. */
  lemma AddPollPreservesValid(st: Store, id: string, poll: Poll)
    requires Valid(st)
    requires id !in st.polls
    ensures Valid(st.(polls := st.polls[id := poll], counts := st.counts[id := InitCounts(|poll.options|)]))
  {
    var st' := st.(polls := st.polls[id := poll], counts := st.counts[id := InitCounts(|poll.options|)]);
    assert LogWellFormed(st') by {
      forall i | 0 <= i < |st'.responses|
        ensures st'.responses[i].pollId in st'.polls
        ensures 0 <= st'.responses[i].optionIndex < |st'.polls[st'.responses[i].pollId].options|
      {
        assert st.responses[i].pollId in st.polls;
      }
    }
    assert forall i :: 0 <= i < |st.responses| ==> st.responses[i].pollId != id;
    LogOfAbsent(st.responses, id);
    forall p | p in st'.polls
      ensures CacheAgrees(st', p)
    {
      if p != id {
        assert CacheAgrees(st, p);
        assert st'.polls[p] == st.polls[p];
        assert (p in st'.counts) == (p in st.counts);
        assert p in st.counts ==> st'.counts[p] == st.counts[p];
      } else {
        assert LogOf(st'.responses, p) == [];
        assert st'.counts[p] == Replay([], |poll.options|);
      }
    }
  }

  /** Creating a poll keeps the store valid: the new poll has no votes and a zeroed entry. */
  lemma CreatePollPreservesValid(st: Store, body: CreatePollBody, userId: Option<string>, newId: string, now: int)
    requires Valid(st)
    requires newId !in st.polls
    ensures var r := CreatePoll(st, body, userId, newId, now);
      r.Success? ==> Valid(r.value)
  {
    var r := CreatePoll(st, body, userId, newId, now);
    if r.Success? {
      AddPollPreservesValid(st, newId, r.value.polls[newId]);
    }
  }

  // ------------------------------------------------------------ reading polls

  /** A poll with its formatted results: the body of GET `/:id`. */
  datatype PollDetail = PollDetail(poll: Poll, results: Formatted)

  /**
    GET `/:id`. Any existing poll, active or not, is returned with its results; when
    the cache holds no entry the results are those of `initCounts`, so nobody has
    voted and every percentage is zero.
  */
  function GetPoll(st: Store, pollId: string): (r: Result<PollDetail, ErrorCode>)
    ensures r.Failure? <==> pollId !in st.polls
    ensures r.Failure? ==> r.error == PollNotFound
    ensures r.Success? ==> r.value.poll == st.polls[pollId]
    ensures r.Success? && pollId in st.counts ==> r.value.results == FormatResults(st.counts[pollId])
    ensures r.Success? && pollId !in st.counts ==>
      && r.value.results == FormatResults(InitCounts(|st.polls[pollId].options|))
      && r.value.results.total == 0
      && |r.value.results.options| == |st.polls[pollId].options|
      && (forall i :: 0 <= i < |r.value.results.options| ==> r.value.results.options[i].percentage == 0.0)
      && r.value.results.byGender.None? && r.value.results.byAgeGroup.None?
  {
    if pollId !in st.polls then Failure(PollNotFound)
    else
      var poll := st.polls[pollId];
      var counts := if pollId in st.counts then st.counts[pollId] else InitCounts(|poll.options|);
      Success(PollDetail(poll, FormatResults(counts)))
  }

  /** In a valid store the results shown for a poll are those derivable from its durable log alone. */
  lemma ShownResultsFollowTheLog(st: Store, pollId: string)
    requires Valid(st)
    requires pollId in st.polls
    ensures IndicesIn(LogOf(st.responses, pollId), |st.polls[pollId].options|)
    ensures GetPoll(st, pollId).value.results
        == FormatResults(Replay(LogOf(st.responses, pollId), |st.polls[pollId].options|))
  {
    LogOfIndices(st, pollId);
  }

  /** A poll of the list with its number of responses. */
  datatype PollSummary = PollSummary(poll: Poll, responseCount: nat)

  function CreatedAt(s: PollSummary): int {
    s.poll.createdAt
  }

  /** The `WHERE` clause of GET `/`: active, not expired at `now`, in the category when one is given. */
  predicate Listed(s: PollSummary, category: Option<string>, now: int) {
    && s.poll.isActive
    && (s.poll.expiresAt.None? || s.poll.expiresAt.value > now)
    && (Truthy(category) ==> s.poll.category == category)
  }

  /** `Listed` as a row condition. */
  function ListedAt(category: Option<string>, now: int): PollSummary -> bool {
    s => Listed(s, category, now)
  }

  /** The rows the `WHERE` clause keeps: exactly the listed ones, in query order. */
  function FilterListed(rows: seq<PollSummary>, category: Option<string>, now: int): (r: seq<PollSummary>)
    ensures forall s :: s in r <==> s in rows && Listed(s, category, now)
  {
    Pagination.Filter(rows, ListedAt(category, now))
  }

  /**
    GET `/`: one page of the listed polls older than the cursor. `rows` are the polls
    in the order of the query's `ORDER BY`: newest first for `sort=latest`, and by
    response count, then newest first, for `sort=popular`; the `sort` parameter only
    decides that order. The page size is the corrected `PageLimit`. The page holds the
    first matching polls in that order, every item is active, unexpired, in the
    category and older than the cursor, a next cursor is given exactly when more
    matching polls follow, and a page without one holds every matching poll.
  */
  function ListPolls(rows: seq<PollSummary>, category: Option<string>, cursor: Option<int>,
                     limitParam: Option<int>, now: int): (page: Pagination.Page<PollSummary>)
    ensures var matching := Pagination.OlderThan(FilterListed(rows, category, now), cursor, CreatedAt);
      var limit := Pagination.PageLimit(limitParam);
      && page.items == matching[..if limit < |matching| then limit else |matching|]
      && (page.nextCursor.Some? <==> |matching| > limit)
    ensures |page.items| <= Pagination.PageLimit(limitParam) <= Pagination.MAX_LIMIT
    ensures forall i :: 0 <= i < |page.items| ==>
      page.items[i] in rows && Listed(page.items[i], category, now)
      && (cursor.Some? ==> page.items[i].poll.createdAt < cursor.value)
    ensures page.nextCursor.None? ==> forall s ::
      s in rows && Listed(s, category, now) && (cursor.Some? ==> s.poll.createdAt < cursor.value) ==> s in page.items
    ensures page.nextCursor.Some? ==>
      |page.items| == Pagination.PageLimit(limitParam)
      && page.nextCursor.value == page.items[|page.items| - 1].poll.createdAt
  {
    var matching := Pagination.OlderThan(FilterListed(rows, category, now), cursor, CreatedAt);
    Pagination.Paginate(matching, Pagination.PageLimit(limitParam), CreatedAt)
  }

  /**
    With `sort=popular` the rows come by response count, yet the cursor still compares
    `created_at`: poll `a` (created at 2, no votes) and poll `b` (created at 1, five
    votes) with a page size of one give the page `[b]` with cursor 1, and the page after
    it is empty and final, so `a` is never listed.
  */
  lemma PopularOrderSkipsPolls(a: Poll, b: Poll, now: int)
    requires a.isActive && b.isActive && a.expiresAt.None? && b.expiresAt.None?
    requires a.createdAt == 2 && b.createdAt == 1
    ensures var rows := [PollSummary(b, 5), PollSummary(a, 0)];
      var first := ListPolls(rows, None, None, Some(1), now);
      && first.items == [PollSummary(b, 5)] && first.nextCursor == Some(1)
      && ListPolls(rows, None, first.nextCursor, Some(1), now) == Pagination.Page([], None)
      && Listed(PollSummary(a, 0), None, now)
  {
  }
}

=== FILE: schema.dfy ===
/**
  The rows the worker keeps in its database and the error codes its handlers
  answer with (workers/src/types.ts, workers/src/utils/response.ts).
  Identifiers are opaque strings; timestamps are integers (milliseconds for
  expiry instants, and any order-preserving encoding of `created_at`).
*/
module Schema {
  import opened Wrappers

  /** The `code` of an error response. */
  datatype ErrorCode =
    | InvalidInput
    | PollNotFound
    | PollExpired
    | DuplicateVote
    | CommentNotFound
    | Forbidden
    | InternalError

  /** The HTTP status each handler pairs with the code. */
  function Status(e: ErrorCode): (status: nat)
    ensures 400 <= status < 600
  {
    match e
    case InvalidInput => 400
    case PollNotFound => 404
    case PollExpired => 400
    case DuplicateVote => 409
    case CommentNotFound => 404
    case Forbidden => 403
    case InternalError => 500
  }

  /** A row of `polls`; `options` is the decoded JSON array, `isActive` is `is_active = 1`. */
  datatype Poll = Poll(
    id: string,
    creatorId: Option<string>,
    question: string,
    options: seq<string>,
    category: Option<string>,
    expiresAt: Option<int>,
    isActive: bool,
    createdAt: int)

  /** A row of `responses`: one accepted vote with its demographic snapshot. */
  datatype Response = Response(
    pollId: string,
    optionIndex: int,
    userId: Option<string>,
    fingerprint: string,
    gender: Option<string>,
    ageGroup: Option<string>,
    region: Option<string>)

  /** A row of `user_profiles` (the key `user_id` is the map key); share flags are `share_* != 0`. */
  datatype Profile = Profile(
    gender: Option<string>,
    ageGroup: Option<string>,
    region: Option<string>,
    shareGender: bool,
    shareAgeGroup: bool,
    shareRegion: bool)

  /** A row of `comments`. */
  datatype Comment = Comment(
    id: string,
    pollId: string,
    userId: string,
    content: string,
    createdAt: int)
}

=== FILE: users.dfy ===
/**
  The profile handlers of the worker (workers/src/routes/users.ts): reading one's
  own profile, the validated profile update, and the list of one's own polls.
  The profile table is a map from user id to row; the authenticated user id is a
  parameter (every route requires authentication).
*/
module Users {
  import opened Wrappers
  import opened JsString
  import opened Schema
  import Pagination
  import Polls

  /** A field of the JSON body: left out (`undefined`), `null`, or a string. */
  datatype Field = Omitted | Null | Given(value: string) {
    /** `field ?? null`. */
    function OrNull(): Option<string> {
      if Given? then Some(value) else None
    }
  }

  /** The body of PUT `/me/profile`; a share flag is `None` when omitted. */
  datatype ProfileBody = ProfileBody(
    gender: Field,
    ageGroup: Field,
    region: Field,
    shareGender: Option<bool>,
    shareAgeGroup: Option<bool>,
    shareRegion: Option<bool>)

  /** The profile as the handlers return it, share flags as booleans. */
  datatype ProfileView = ProfileView(
    userId: string,
    gender: Option<string>,
    ageGroup: Option<string>,
    region: Option<string>,
    shareGender: bool,
    shareAgeGroup: bool,
    shareRegion: bool)

  const VALID_GENDERS: set<string> := {"male", "female", "other"}
  const VALID_AGE_GROUPS: set<string> := {"10s", "20s", "30s", "40s", "50s", "60+"}

  /** An omitted field skips validation, `null` is accepted, a string must be one of `valid`. */
  predicate FieldAllowed(f: Field, valid: set<string>) {
    f.Given? ==> f.value in valid
  }

  /** JavaScript truthiness of an optional boolean: stored as 1 when true, 0 otherwise. */
  function Flag(b: Option<bool>): bool {
    b == Some(true)
  }

  function View(userId: string, p: Profile): ProfileView {
    ProfileView(userId, p.gender, p.ageGroup, p.region, p.shareGender, p.shareAgeGroup, p.shareRegion)
  }

  /**
    GET `/me`. A user without a row gets the default profile: no attributes and every
    share flag off; otherwise the stored row with its flags as booleans.
  */
  function GetMe(profiles: map<string, Profile>, userId: string): (v: ProfileView)
    ensures v.userId == userId
    ensures userId !in profiles ==> v == ProfileView(userId, None, None, None, false, false, false)
    ensures userId in profiles ==> v == View(userId, profiles[userId])
  {
    if userId !in profiles then ProfileView(userId, None, None, None, false, false, false)
    else View(userId, profiles[userId])
  }

  /** The updated profile, as both stored and answered. */
  datatype ProfileUpdated = ProfileUpdated(profiles: map<string, Profile>, response: ProfileView)

  /**
    PUT `/me/profile`. A given gender must be male, female or other and a given age
    group one of 10s to 60+ (null is accepted, an omitted field is not checked, the
    region never is); otherwise `INVALID_INPUT` and nothing changes. On success all six
    columns of the user's row are overwritten: an omitted or null attribute becomes
    null, an omitted or false share flag turns sharing off. No other row changes.
  */
  function UpdateProfile(profiles: map<string, Profile>, userId: string, body: ProfileBody)
    : (r: Result<ProfileUpdated, ErrorCode>)
    ensures r.Success? <==> FieldAllowed(body.gender, VALID_GENDERS) && FieldAllowed(body.ageGroup, VALID_AGE_GROUPS)
    ensures r.Failure? ==> r.error == InvalidInput
    ensures r.Success? ==>
      && r.value.profiles.Keys == profiles.Keys + {userId}
      && (forall u :: u in profiles && u != userId ==> r.value.profiles[u] == profiles[u])
      && r.value.profiles[userId].gender == body.gender.OrNull()
      && r.value.profiles[userId].ageGroup == body.ageGroup.OrNull()
      && r.value.profiles[userId].region == body.region.OrNull()
      && r.value.profiles[userId].shareGender == Flag(body.shareGender)
      && r.value.profiles[userId].shareAgeGroup == Flag(body.shareAgeGroup)
      && r.value.profiles[userId].shareRegion == Flag(body.shareRegion)
  {
    if !FieldAllowed(body.gender, VALID_GENDERS) then Failure(InvalidInput)
    else if !FieldAllowed(body.ageGroup, VALID_AGE_GROUPS) then Failure(InvalidInput)
    else
      var row := Profile(body.gender.OrNull(), body.ageGroup.OrNull(), body.region.OrNull(),
                         Flag(body.shareGender), Flag(body.shareAgeGroup), Flag(body.shareRegion));
      var response := ProfileView(userId, body.gender.OrNull(), body.ageGroup.OrNull(), body.region.OrNull(),
                                  Flag(body.shareGender), Flag(body.shareAgeGroup), Flag(body.shareRegion));
      Success(ProfileUpdated(profiles[userId := row], response))
  }

  /** What the update answers is exactly what a later GET `/me` reads back. */
  lemma UpdateThenGetMe(profiles: map<string, Profile>, userId: string, body: ProfileBody)
    requires UpdateProfile(profiles, userId, body).Success?
    ensures var u := UpdateProfile(profiles, userId, body).value;
      GetMe(u.profiles, userId) == u.response
  {
  }

  /** Every stored gender and age group is null or one of the accepted values. */
  ghost predicate ProfilesValid(profiles: map<string, Profile>) {
    forall u :: u in profiles ==>
      && (profiles[u].gender.Some? ==> profiles[u].gender.value in VALID_GENDERS)
      && (profiles[u].ageGroup.Some? ==> profiles[u].ageGroup.value in VALID_AGE_GROUPS)
  }

  /** The update keeps every stored attribute within the accepted values. */
  lemma UpdateKeepsProfilesValid(profiles: map<string, Profile>, userId: string, body: ProfileBody)
    requires ProfilesValid(profiles)
    ensures var r := UpdateProfile(profiles, userId, body);
      r.Success? ==> ProfilesValid(r.value.profiles)
  {
  }

  /**
    Consent reaches the vote acceptor: after an update that leaves gender sharing off,
    the snapshot of that user's next vote carries no gender, whatever gender was given;
    with sharing on, it carries exactly the given gender.
  */
  lemma UpdatedConsentDecidesSnapshot(profiles: map<string, Profile>, userId: string, body: ProfileBody)
    requires userId != ""
    requires UpdateProfile(profiles, userId, body).Success?
    ensures var s := Polls.SharedDemographics(UpdateProfile(profiles, userId, body).value.profiles, Some(userId));
      && s.gender == (if Flag(body.shareGender) then body.gender.OrNull() else None)
      && s.ageGroup == (if Flag(body.shareAgeGroup) then body.ageGroup.OrNull() else None)
      && s.region == (if Flag(body.shareRegion) then body.region.OrNull() else None)
  {
  }

  /**
    GET `/me/polls`: one page of the user's own polls older than the cursor, newest
    first (`rows`, the query's order), with the corrected `PageLimit` as page size. The
    page holds the first such polls, a next cursor is given exactly when more follow,
    and a page without one holds every such poll.
  */
  function MyPolls(rows: seq<Polls.PollSummary>, userId: string, cursor: Option<int>, limitParam: Option<int>)
    : (page: Pagination.Page<Polls.PollSummary>)
    ensures var matching := Pagination.OlderThan(OwnPolls(rows, userId), cursor, Polls.CreatedAt);
      var limit := Pagination.PageLimit(limitParam);
      && page.items == matching[..if limit < |matching| then limit else |matching|]
      && (page.nextCursor.Some? <==> |matching| > limit)
    ensures |page.items| <= Pagination.PageLimit(limitParam)
    ensures forall i :: 0 <= i < |page.items| ==>
      page.items[i] in rows && page.items[i].poll.creatorId == Some(userId)
      && (cursor.Some? ==> page.items[i].poll.createdAt < cursor.value)
    ensures page.nextCursor.None? ==> forall s ::
      s in rows && s.poll.creatorId == Some(userId) && (cursor.Some? ==> s.poll.createdAt < cursor.value) ==> s in page.items
    ensures page.nextCursor.Some? ==>
      |page.items| == Pagination.PageLimit(limitParam)
      && page.nextCursor.value == page.items[|page.items| - 1].poll.createdAt
  {
    var mine := OwnPolls(rows, userId);
    Pagination.Paginate(Pagination.OlderThan(mine, cursor, Polls.CreatedAt), Pagination.PageLimit(limitParam), Polls.CreatedAt)
  }

  /** The `creator_id = ?` condition. */
  function CreatedBy(userId: string): Polls.PollSummary -> bool {
    (s: Polls.PollSummary) => s.poll.creatorId == Some(userId)
  }

  /** Exactly the polls the user created, in query order. */
  function OwnPolls(rows: seq<Polls.PollSummary>, userId: string): (r: seq<Polls.PollSummary>)
    ensures forall s :: s in r <==> s in rows && s.poll.creatorId == Some(userId)
  {
    Pagination.Filter(rows, CreatedBy(userId))
  }
}

=== FILE: votestorage.dfy ===
/**
  The browser-side record of which option this browser voted for in each poll, kept
  as one JSON object under a single local-storage key. Reads that fail or find an
  unparseable value behave as an empty record; writes that fail are dropped.
*/
module VoteStorage {
  import opened Wrappers

  const STORAGE_KEY: string := "vibepulse_votes"

  /** One saved vote; `votedAt` is the ISO timestamp the caller supplies for "now". */
  datatype StoredVote = StoredVote(optionIndex: int, votedAt: string)

  /** What the storage key holds, abstracting the JSON text. */
  datatype Item =
    | Absent
    | Unparseable
    | Votes(votes: map<string, StoredVote>)

  /** Local storage for this origin; when it is disabled every access throws. */
  datatype Storage = Storage(enabled: bool, item: Item)

  /** `getStorage`: the record, or the empty record when reading or parsing fails. */
  function Load(s: Storage): (m: map<string, StoredVote>)
    ensures !s.enabled || !s.item.Votes? ==> m == map[]
  {
    if s.enabled && s.item.Votes? then s.item.votes else map[]
  }

  /**
    `saveVote`: the vote is recorded under `pollId` in the loaded record and the record
    written back. `writeOk` says whether the write succeeds (a full quota makes it
    throw, which the source swallows).
  */
  function SaveVote(s: Storage, pollId: string, optionIndex: int, votedAt: string, writeOk: bool)
    : (r: Storage)
    ensures s.enabled && writeOk ==>
      && pollId in Load(r)
      && Load(r)[pollId] == StoredVote(optionIndex, votedAt)
      && forall q :: q != pollId ==> (q in Load(r) <==> q in Load(s))
    ensures s.enabled && writeOk ==>
      forall q :: q != pollId && q in Load(s) ==> Load(r)[q] == Load(s)[q]
    ensures !(s.enabled && writeOk) ==> r == s
  {
    if s.enabled && writeOk then s.(item := Votes(Load(s)[pollId := StoredVote(optionIndex, votedAt)]))
    else s
  }

  /** `getVote`: the saved option index, or null. */
  function GetVote(s: Storage, pollId: string): (r: Option<int>)
    ensures r.Some? <==> pollId in Load(s)
  {
    if pollId in Load(s) then Some(Load(s)[pollId].optionIndex) else None
  }

  /** `hasVoted`: the poll id is a key of the loaded record. */
  predicate HasVoted(s: Storage, pollId: string) {
    pollId in Load(s)
  }

  /** A saved vote reads back, and is reported as voted. */
  lemma GetAfterSave(s: Storage, pollId: string, optionIndex: int, votedAt: string)
    requires s.enabled
    ensures GetVote(SaveVote(s, pollId, optionIndex, votedAt, true), pollId) == Some(optionIndex)
    ensures HasVoted(SaveVote(s, pollId, optionIndex, votedAt, true), pollId)
  {
  }

  /** Saving for one poll leaves what every other poll reads unchanged, whether or not the write lands. */
  lemma SaveKeepsOthers(s: Storage, pollId: string, optionIndex: int, votedAt: string, writeOk: bool, other: string)
    requires other != pollId
    ensures var r := SaveVote(s, pollId, optionIndex, votedAt, writeOk);
      GetVote(r, other) == GetVote(s, other) && (HasVoted(r, other) <==> HasVoted(s, other))
  {
  }

  /** A second save for the same poll replaces the first: the record is as if only the second happened. */
  lemma LastWriteWins(s: Storage, pollId: string, i: int, t: string, j: int, u: string)
    ensures Load(SaveVote(SaveVote(s, pollId, i, t, true), pollId, j, u, true))
         == Load(SaveVote(s, pollId, j, u, true))
  {
  }

  /** `hasVoted` and a non-null `getVote` agree. */
  lemma HasVotedIffGetVote(s: Storage, pollId: string)
    ensures HasVoted(s, pollId) <==> GetVote(s, pollId).Some?
  {
  }

  /** Unreadable or corrupt storage reads as "never voted", and the first save over it starts afresh. */
  lemma CorruptStorageIsEmpty(s: Storage, pollId: string, optionIndex: int, votedAt: string)
    requires s.item.Unparseable? || !s.enabled
    ensures !HasVoted(s, pollId) && GetVote(s, pollId) == None
    ensures Load(SaveVote(s, pollId, optionIndex, votedAt, true)).Keys <= {pollId}
  {
  }
}

=== FILE: wrappers.dfy ===
/** Optional values and success/failure results shared by every module of the model. */
module Wrappers {

  /** A value that may be missing: JavaScript's `null`/`undefined`. */
  datatype Option<+T> = None | Some(value: T) {
    function GetOr(default: T): T {
      match this
      case Some(v) => v
      case None => default
    }
  }

  /** The outcome of a request handler: a value, or one of the error codes it returns. */
  datatype Result<+R, +E> = Success(value: R) | Failure(error: E)
}
